=== FILE: README.md ===
# Camera album web app — a Dafny model of its state logic

The application is a browser UI for photo and video albums. Users sign in,
create, rename and delete albums, capture photos and videos with the device
camera, and upload them to a REST backend. Its logic sits in a few small
state containers ("stores") and form and page handlers around the HTTP and
browser calls. This project models each of them as a pure function over
immutable state. Every network or device answer becomes an explicit input:
`Outcome<T> = Ok(data) | Err(reason)`. In `Err`, `reason` is the message of
a thrown `Error`, or `None` for any other thrown value.

Modules follow the source files:

- `Types` holds the records of `src/types/index.ts`.
- `Outcomes` holds optional values, call outcomes, JavaScript truthiness of a
  `string | null`, and the stores' "message or fallback" rule.
- `Seqs` holds `Array.prototype.filter` and the joining of byte chunks into
  one blob.
- `Text` holds white space, `trim()`, `String(n)` and `replace(/:/g, '-')`.
- `Email` holds the regular expression `\S+@\S+\.\S+`. `Email.Matches` states
  what the unanchored pattern accepts, in terms of positions.
  `Email.LooksLikeEmail` decides it in one pass, and is proved to agree with
  `Email.Matches`.
- `AlbumStore`, `MediaStore` and `DeviceStore` model the stores. A store
  action is `Begin` (loading on, error cleared). Once its request settles,
  the matching `...Done` function runs on the store as it is at that moment.
  This matches the source's functional `set`, which reads the state current
  at settle time.
- `AuthStore` models the stand-in registry, the session and the two
  local-storage entries.
- `RegisterForm` and `LoginForm` model validation, per-input error clearing
  and submission to `AuthStore`.
- `CameraView` models camera start, photo capture, recording and the button
  states.
- `CapturePage` models album auto-selection, saving as an upload, and
  discarding.
- `AlbumCard` models the inline rename.
- `CreateAlbumModal` models the dialog's submit.

`IsSpace` is the set of characters that ECMAScript's WhiteSpace and
LineTerminator productions define (the `\s` class and `trim()`). Only the
lemmas about concrete example inputs depend on which characters are in that
set: `LoginForm.NoLengthRequirement`, `LoginForm.SeededAccountSignsIn` and
`RegisterForm.StaleMismatchMessage`. They need the letters of their example
names and e-mails to be non-space.

## Model

| member | source | states |
|---|---|---|
| `AlbumStore.Begin` | src/store/albumStore.ts:15 | Every album action first sets loading on and clears the error, leaving albums and current album alone |
| `AlbumStore.FetchAlbumsDone` | src/store/albumStore.ts:14-33 | On success the response replaces the list. On failure the list stays and the error holds the message or "Failed to fetch albums". Either way loading ends, the current album is untouched, and the failure is not rethrown |
| `AlbumStore.RefetchForgetsFailure` | src/store/albumStore.ts:14-33 | A failed fetch followed by a successful one ends exactly as the successful fetch alone would |
| `AlbumStore.Failed` | src/store/albumStore.ts:28-31 | A failed request turns loading off and records the message or the fallback. Albums and current album stay |
| `AlbumStore.CreateAlbumDone` | src/store/albumStore.ts:35-64 | On success the new album is appended after all earlier albums, which keep their order, and it is returned. On failure the list stays, the message is recorded and the same failure is rethrown |
| `AlbumStore.RenameInList` | src/store/albumStore.ts:82-84 | Same length. Exactly the albums with the given id get the new name, with all their other fields kept. Every other album is untouched |
| `AlbumStore.RenameKeepsIds` | src/store/albumStore.ts:82-84 | A rename never changes any album's id |
| `AlbumStore.RenameAbsentId` | src/store/albumStore.ts:82-84 | Renaming an id no album has leaves the list unchanged |
| `AlbumStore.RenameBack` | src/store/albumStore.ts:82-84 | Renaming back to the old name restores the list, when every album with the id had that old name |
| `AlbumStore.RenameAlbumDone` | src/store/albumStore.ts:66-97 | On success the list is renamed by id, and the current album is renamed exactly when its id matches. On failure nothing but the flags changes and the failure is rethrown |
| `AlbumStore.WithoutId` | src/store/albumStore.ts:112 | No album with the id survives. Every album with another id survives, and nothing new appears |
| `AlbumStore.WithoutIdSplits` | src/store/albumStore.ts:112 | Deleting works piecewise over a concatenation, so the survivors keep their original order |
| `AlbumStore.WithoutIdCount` | src/store/albumStore.ts:112 | Each surviving album keeps its number of copies, and a deleted one has none left |
| `AlbumStore.WithoutAbsentId` | src/store/albumStore.ts:112 | Deleting an id that no album has is the identity on the list |
| `AlbumStore.DeleteAlbumDone` | src/store/albumStore.ts:99-123 | On success the albums with the id leave, and the current album becomes null exactly when it was null or had that id. Otherwise the current album is kept. On failure nothing but the flags changes and the failure is rethrown |
| `AlbumStore.DeleteUndoesCreate` | src/store/albumStore.ts:51-54 | Deleting a freshly created album with a new id restores the album list to what it was before the creation |
| `AlbumStore.SetCurrentAlbum` | src/store/albumStore.ts:125-127 | Only the current album changes |
| `AlbumStore.SetCurrentAlbumBack` | src/store/albumStore.ts:125-127 | Selecting the previous album again restores the store |
| `MediaStore.Begin` | src/store/mediaStore.ts:14 | Every media action first sets loading on and clears the error, leaving the items alone |
| `MediaStore.FetchMediaDone` | src/store/mediaStore.ts:13-32 | On success the response replaces the items. On failure they stay and the message or "Failed to fetch media" is recorded. The failure is never rethrown |
| `MediaStore.RefetchForgetsFailure` | src/store/mediaStore.ts:13-32 | A failed fetch followed by a successful one ends exactly as the successful fetch alone would |
| `MediaStore.Failed` | src/store/mediaStore.ts:26-31 | A failed request turns loading off and records the message or the fallback. The items stay |
| `MediaStore.UploadMediaDone` | src/store/mediaStore.ts:34-65 | On success the server's record is appended after the unchanged earlier items. On failure the items stay, the message is recorded and the failure is rethrown |
| `MediaStore.WithoutId` | src/store/mediaStore.ts:80 | No item with the id survives. Every item with another id survives, and nothing new appears |
| `MediaStore.WithoutIdSplits` | src/store/mediaStore.ts:80 | The surviving items keep their original order |
| `MediaStore.WithoutAbsentId` | src/store/mediaStore.ts:80 | Deleting an absent id leaves the items unchanged |
| `MediaStore.DeleteUndoesUpload` | src/store/mediaStore.ts:54-57 | Deleting a freshly uploaded item with a new id restores the item list to what it was before the upload |
| `MediaStore.DeleteMediaDone` | src/store/mediaStore.ts:67-90 | On success every item with the id is removed. On failure the items stay, the message is recorded and the failure is rethrown |
| `DeviceStore.Begin` | src/store/deviceStore.ts:11 | Listing devices first sets loading on and clears the error |
| `DeviceStore.Cameras` | src/store/deviceStore.ts:18 | A device is kept exactly when its kind is "videoinput" |
| `DeviceStore.CamerasSplit` | src/store/deviceStore.ts:18 | The kept cameras stay in the browser's order |
| `DeviceStore.CamerasKeepsCameras` | src/store/deviceStore.ts:18 | A list made only of cameras is kept whole |
| `DeviceStore.GetDevicesDone` | src/store/deviceStore.ts:10-34 | On success the cameras become the device list, and the selection becomes the first camera's id, or null when there is none, whatever was selected before. On failure list and selection stay and the message is recorded |
| `DeviceStore.SetCurrentDevice` | src/store/deviceStore.ts:36-38 | Only the selected device id changes |
| `DeviceStore.SetCurrentDeviceBack` | src/store/deviceStore.ts:36-38 | Selecting the previously selected device again restores the store |
| `AuthStore.Load` | src/store/authStore.ts:13-35 | The session is authenticated exactly when a non-empty token is stored. A user is set exactly when a non-empty e-mail is stored as well and the seeded registry's lookup finds it, either as the seeded user or as a name every plain object inherits. It is then exactly what that lookup yields |
| `AuthStore.Begin` | src/store/authStore.ts:37 | Login and register first set loading on and change nothing else |
| `AuthStore.Lookup` | src/store/authStore.ts:44 | `DUMMY_USERS[key]` finds nothing exactly when the key is neither registered nor inherited from `Object.prototype`. A registered key yields its user, shadowing an inherited one. An inherited key yields that member |
| `AuthStore.PatternKeysAreOwn` | src/store/authStore.ts:74 | For an e-mail containing '@', as every e-mail the forms accept does, the lookup finds something exactly when the registry holds the e-mail, because no inherited name contains '@' |
| `AuthStore.LoginDone` | src/store/authStore.ts:36-64 | Login succeeds exactly when the registry lookup finds the e-mail and the password is "password". The e-mail may be registered or inherited, such as "toString". Success stores the fixed token and the e-mail and signs in what the lookup found. Failure clears storage, keeps user, token and authentication flag, and throws "Invalid credentials" |
| `AuthStore.RegisterDone` | src/store/authStore.ts:66-90 | An e-mail the lookup finds, registered or inherited, throws "User already exists" and leaves the registry unchanged. Any other e-mail adds exactly one entry, with id String(size + 1) and the given name and e-mail. Existing entries are untouched and the session is unchanged |
| `AuthStore.Logout` | src/store/authStore.ts:92-96 | Storage is cleared and token, user and authentication flag are reset |
| `AuthStore.DummyUsersWellFormed` | src/store/authStore.ts:5-11 | The seeded registry files its user under its own e-mail with id "1" |
| `AuthStore.InsertKeepsWellFormed` | src/store/authStore.ts:79-83 | Filing a new user under a new e-mail with the next id keeps the registry's ids sequential and pairwise distinct |
| `AuthStore.RegisterKeepsWellFormed` | src/store/authStore.ts:66-90 | Registration never breaks the registry's shape |
| `AuthStore.RegisteredUserSignsIn` | src/store/authStore.ts:44 | After a successful registration, the new e-mail signs in with "password" and with no other password, whichever one was registered |
| `AuthStore.LogoutThenLogin` | src/store/authStore.ts:92-96 | After logout, a correct login signs the same registry entry in again |
| `AuthStore.RegisterKeepsSeed` | src/store/authStore.ts:72-83 | Registration keeps the seeded user as seeded and never files an inherited name as a key |
| `AuthStore.ReloadAfterLogin` | src/store/authStore.ts:13-23 | After a successful login a page reload signs the session in again with the same token. A seeded or inherited e-mail finds the same user again. A user registered since the last load is not found, because the registry starts over from the seed |
| `Text.Trim` | src/components/auth/RegisterForm.tsx:40 | `trim()` is a slice of the string with only white space cut off before and after it. It is empty exactly when every character is white space, and otherwise starts and ends with a non-space character |
| `Text.TrimIdempotent` | src/components/album/CreateAlbumModal.tsx:24 | Trimming twice is trimming once |
| `Text.NatToString` | src/store/authStore.ts:80 | `String(n)` is a non-empty string of digits without a leading zero whose decimal value is n |
| `Text.ReplaceAll` | src/pages/CapturePage.tsx:61 | Same length. Each occurrence of the character is replaced and every other character kept |
| `Text.ReplaceAllRemoves` | src/pages/CapturePage.tsx:61 | After replacing ':' by '-' no ':' is left |
| `Email.MatchesIffWitness` | src/components/auth/LoginForm.tsx:39 | The pattern matches exactly when an '@' and a later '.' exist with a non-space character right before the '@', at least one character between them, all of them non-space, and a non-space character right after the '.' |
| `Email.StepDescribes` | src/components/auth/LoginForm.tsx:39 | Reading one more character keeps the scanner's five facts about the prefix true |
| `Email.ScanPrefixDescribes` | src/components/auth/LoginForm.tsx:39 | After any prefix, the scanner's state tells the truth about that prefix |
| `Email.LooksLikeEmail` | src/components/auth/LoginForm.tsx:39 | The one-pass check accepts exactly the strings the unanchored pattern matches |
| `Email.MatchesHasAt` | src/components/auth/LoginForm.tsx:39 | Every string the pattern accepts contains an '@' |
| `RegisterForm.HandleChange` | src/components/auth/RegisterForm.tsx:27-34 | Only the edited input changes, and only its message is cleared. The form-level message stays |
| `RegisterForm.Validate` | src/components/auth/RegisterForm.tsx:36-68 | Valid exactly when the name is not blank, the e-mail matches the pattern, the password has at least 6 characters and equals the confirmation. The messages are "required" for an empty e-mail or password, "invalid" or "too short" for non-empty failures, and the mismatch message independently. A passing check keeps the earlier message |
| `RegisterForm.EmptyEmailNeverMatches` | src/components/auth/RegisterForm.tsx:45-51 | An empty e-mail never matches the pattern, so the "required" and "invalid" messages cannot both apply |
| `RegisterForm.ShortAndMismatched` | src/components/auth/RegisterForm.tsx:53-64 | A short password and a different confirmation are reported together |
| `RegisterForm.HandleSubmit` | src/components/auth/RegisterForm.tsx:70-86 | An invalid form never calls register. A valid one calls it. Only a rejection sets "Registration failed. Please try again.", keeping the field messages |
| `RegisterForm.FreshEmailRegisters` | src/components/auth/RegisterForm.tsx:70-86 | A valid form with an unregistered e-mail always registers it |
| `RegisterForm.ChangeKeepsMessagesCurrent` | src/components/auth/RegisterForm.tsx:27-34 | Typing into any input keeps every name, e-mail and password message true of the value now in its input |
| `RegisterForm.ValidateKeepsMessagesCurrent` | src/components/auth/RegisterForm.tsx:36-68 | Validation keeps those messages current. A form that passes then shows no name, e-mail or password message |
| `RegisterForm.StaleMismatchMessage` | src/components/auth/RegisterForm.tsx:27-64 | After a mismatch is reported, making the password equal to the confirmation clears only the password's message. The form then passes while still showing "Passwords do not match" |
| `LoginForm.HandleChange` | src/components/auth/LoginForm.tsx:23-30 | Only the edited input changes, and only its message is cleared |
| `LoginForm.Validate` | src/components/auth/LoginForm.tsx:32-51 | Valid exactly when the e-mail matches the pattern and the password is non-empty. "Email is required" applies to an empty e-mail and "Email is invalid" to a malformed one. A passing check keeps the earlier message |
| `LoginForm.NoLengthRequirement` | src/components/auth/LoginForm.tsx:44-47 | A one-character password passes sign-in validation |
| `LoginForm.HandleSubmit` | src/components/auth/LoginForm.tsx:53-67 | An invalid form never calls login. Only a rejected login sets "Invalid email or password", keeping the field messages |
| `LoginForm.SignInIff` | src/components/auth/LoginForm.tsx:53-67 | A submission signs in exactly when the e-mail matches the pattern, is registered, and the password is "password" |
| `LoginForm.SeededAccountSignsIn` | src/components/auth/LoginForm.tsx:53-67 | The seeded account signs in from a blank form on any page load |
| `LoginForm.ChangeKeepsMessagesCurrent` | src/components/auth/LoginForm.tsx:23-30 | Typing into either input keeps both messages true of the values now in the inputs |
| `LoginForm.ValidateKeepsMessagesCurrent` | src/components/auth/LoginForm.tsx:32-51 | Validation keeps both messages current. A form that passes then shows no message under either input |
| `CameraView.StartCameraAsWritten` | src/components/capture/CameraView.tsx:31-73 | As written, nothing happens without a non-empty device id or while the preview element is unmounted. Success makes the camera ready with no error. Failure sets "Could not access camera. Please check permissions." and not ready |
| `CameraView.VideoMounted` | src/components/capture/CameraView.tsx:133-153 | The preview element, and so the reference the start needs, exists exactly while no error is shown |
| `CameraView.StartAllAsWritten` | src/components/capture/CameraView.tsx:31-72 | A run of effect re-runs keeps whether a recorder exists, never starts a recording, and never leaves a ready camera showing an error |
| `CameraView.ErrorIsPermanent` | src/components/capture/CameraView.tsx:36 | As written, once the error is shown no sequence of later device changes changes the camera state |
| `CameraView.RetryNeverRecovers` | src/components/capture/CameraView.tsx:133-153 | As written, a failed start followed by a successful one for another camera leaves the error and a camera that is not ready |
| `CameraView.StartCamera` | src/components/capture/CameraView.tsx:31-73 | Corrected start: nothing happens without a non-empty device id. Success makes the camera ready and clears any error. Failure sets the message and not ready |
| `CameraView.RetryRecovers` | src/components/capture/CameraView.tsx:54-55 | With the correction, a successful acquisition recovers from any state |
| `CameraView.CapturePhoto` | src/components/capture/CameraView.tsx:75-92 | A photo is handed on only when the camera is ready. It is then exactly the snapshot the browser produced, if any, at most one per call |
| `CameraView.StartRecording` | src/components/capture/CameraView.tsx:94-118 | Nothing happens unless the camera is ready. Otherwise the chunk buffer is emptied, and recording starts when the recorder was created |
| `CameraView.DataAvailable` | src/components/capture/CameraView.tsx:104-108 | A chunk of size > 0 is appended at the end of the buffer. An empty chunk changes nothing |
| `CameraView.DeliverAll` | src/components/capture/CameraView.tsx:104-108 | After a run of deliveries the buffer is the old buffer followed by the non-empty chunks, in arrival order |
| `CameraView.StopRecording` | src/components/capture/CameraView.tsx:110-124 | Only a recorder that is recording stops. The video handed on is all buffered and final chunks joined in order, possibly empty, and recording ends |
| `CameraView.SessionKeepsOrder` | src/components/capture/CameraView.tsx:94-124 | For a whole session from a ready camera, the video is exactly the recorder's chunks joined in the order produced |
| `CameraView.StopAtOnce` | src/components/capture/CameraView.tsx:110-114 | Stopping straight after starting hands on an empty video |
| `CameraView.TakePhotoWorksWhenEnabled` | src/components/capture/CameraView.tsx:181-189 | When Take Photo is enabled (ready, not recording), pressing it hands the snapshot on |
| `CameraView.TakePhotoEnabled` | src/components/capture/CameraView.tsx:183 | Take Photo is enabled exactly when the camera is ready and not recording |
| `CameraView.RecordShown` | src/components/capture/CameraView.tsx:191 | Record Video is shown exactly when not recording |
| `CameraView.RecordEnabled` | src/components/capture/CameraView.tsx:194 | Record Video is enabled exactly when the camera is ready |
| `CameraView.StopShown` | src/components/capture/CameraView.tsx:191-211 | Stop Recording is shown exactly while recording |
| `CameraView.RecordButtonsTakeTurns` | src/components/capture/CameraView.tsx:191-211 | Record and Stop are never shown together. Pressing an enabled Record with a recorder created swaps in Stop. Pressing Stop then hands the video on and brings Record back, still enabled |
| `CameraView.StepsKeepConsistent` | src/components/capture/CameraView.tsx:54-60 | No controller step leaves a ready camera showing an error: neither the start as written nor the corrected one, nor the recording steps |
| `CameraView.ReleaseStream` | src/components/capture/CameraView.tsx:66-72 | Stopping the preview's tracks ends a running recording exactly when a preview is mounted and a recorder is recording. That recording hands on every buffered and final chunk, joined in order. Otherwise nothing changes. Readiness and error stay |
| `CameraView.RestartAsWritten` | src/components/capture/CameraView.tsx:31-72 | As written, with no preview nothing happens. Otherwise the old stream is released, ending and handing on any recording. Then a truthy id is started: success makes the camera ready with no error, and failure sets the message and not ready |
| `CameraView.RestartCorrected` | src/components/capture/CameraView.tsx:31-72 | The same re-run with the corrected start: a truthy id that is acquired makes the camera ready whatever error was shown |
| `CameraView.SwitchCamera` | src/components/capture/CameraView.tsx:126-128 | The store selects the device. As written, the effect re-runs only when the selection changed and no error is shown. A recording in progress then ends and hands on its video, and a successful acquisition makes the camera ready. While the error is shown the camera is left exactly as it was. On a change with no error shown, a failed acquisition shows "Could not access camera" and leaves the camera not ready |
| `CameraView.SwitchCameraCorrected` | src/components/capture/CameraView.tsx:126-128 | With the corrected start, selecting another camera that is acquired makes the camera ready and clears any earlier error. A recording in progress still ends and hands on its video. A failed acquisition shows "Could not access camera" and leaves the camera not ready |
| `CameraView.DevicesArrived` | src/components/capture/CameraView.tsx:26-36 | When the listed devices arrive, as written the camera restarts only if the default selection differs from the previous one and no error is shown. So Retry, which re-lists the devices, leaves an error exactly as it was. When it does restart, a running recording ends and hands on its video, and a failed acquisition shows "Could not access camera" and leaves the camera not ready |
| `CameraView.SwitchHandsOnRecording` | src/components/capture/CameraView.tsx:38-41 | Switching cameras in the middle of a recording ends it and hands on the same video that pressing Stop would have: every chunk recorded so far, in order |
| `CapturePage.AutoSelect` | src/pages/CapturePage.tsx:27-36 | A navigation album id wins. Otherwise the first album is chosen only when albums exist and nothing is selected. An existing selection is kept |
| `CapturePage.AutoSelectSettles` | src/pages/CapturePage.tsx:27-36 | Re-running the selection effect after its own update changes nothing |
| `CapturePage.Capture` | src/pages/CapturePage.tsx:38-54 | A capture is kept with its kind, image for a photo and video for a recording, and the selection is untouched |
| `CapturePage.RecaptureReplaces` | src/pages/CapturePage.tsx:38-54 | A new capture replaces the one on screen, whatever it was |
| `CapturePage.Extension` | src/pages/CapturePage.tsx:62 | The extension is "jpg" exactly for an image and "webm" exactly for a video |
| `CapturePage.MimeType` | src/pages/CapturePage.tsx:66-68 | The MIME type is "image/jpeg" exactly for an image and "video/webm" exactly for a video |
| `CapturePage.ExtensionMatchesMime` | src/pages/CapturePage.tsx:62-67 | The extension is "jpg" exactly for images and then the MIME type is "image/jpeg". For "webm" it is "video/webm" |
| `CapturePage.FileName` | src/pages/CapturePage.tsx:61-63 | The name is "capture_", then the timestamp with each ':' turned into '-', then "." and the extension. It contains no ':' |
| `CapturePage.SaveMedia` | src/pages/CapturePage.tsx:56-78 | Without a capture or a selected album nothing happens. Otherwise the capture is uploaded with that name, MIME type, album and kind. The album opens exactly on success and an alert shows exactly on failure |
| `CapturePage.SavedCaptureIsLast` | src/pages/CapturePage.tsx:56-78 | A successful save ends with the new item last in the media list |
| `CapturePage.Discard` | src/pages/CapturePage.tsx:80-85 | The capture is dropped and the selection kept. With no capture nothing changes |
| `CapturePage.DiscardUndoesCapture` | src/pages/CapturePage.tsx:80-85 | Discarding a capture returns the page to where it was before capturing |
| `AlbumCard.Show` | src/components/album/AlbumCard.tsx:13-14 | A fresh card is not editing and holds the album's name |
| `AlbumCard.StartEditing` | src/components/album/AlbumCard.tsx:70 | The pencil opens the editor with the current text |
| `AlbumCard.Edit` | src/components/album/AlbumCard.tsx:50 | Typing replaces the edited text only |
| `AlbumCard.HandleRename` | src/components/album/AlbumCard.tsx:16-21 | The untrimmed name is sent exactly when it is not blank and differs from the album's name. Editing ends either way |
| `AlbumCard.HandleKeyDown` | src/components/album/AlbumCard.tsx:23-30 | Enter behaves as the rename handler. Escape restores the album's name and ends editing without a call. Other keys change nothing |
| `AlbumCard.UnchangedNameSendsNothing` | src/components/album/AlbumCard.tsx:16-21 | Confirming without typing sends nothing |
| `AlbumCard.EscapeUndoesEdit` | src/components/album/AlbumCard.tsx:23-30 | Whatever was typed, Escape returns the card to how it was first shown and sends nothing |
| `CreateAlbumModal.Submit` | src/components/album/CreateAlbumModal.tsx:21-33 | A blank name sets "Album name is required" with no call. Otherwise the message is cleared, submission starts, and the untrimmed name is passed |
| `CreateAlbumModal.SubmitDone` | src/components/album/CreateAlbumModal.tsx:34-40 | Success empties the name and closes. Failure sets "Failed to create album. Please try again." and keeps the name. Submission ends either way |
| `CreateAlbumModal.SuccessLeavesCleanDialog` | src/components/album/CreateAlbumModal.tsx:21-40 | A successful submission of a non-blank name leaves the dialog closed and as it started |
| `Seqs.FilterAppend` | src/store/albumStore.ts:112 | Filtering a concatenation filters each part, so filtering never reorders |
| `Seqs.FilterCount` | src/store/mediaStore.ts:80 | Filtering keeps every copy of an accepted element and none of a rejected one |
| `Seqs.FilterKeepsAll` | src/store/deviceStore.ts:18 | A filter that rejects nothing returns its input |
| `Seqs.FlattenAppend` | src/components/capture/CameraView.tsx:111 | Joining a concatenation of chunk lists joins each part in turn |
| `Seqs.FlattenSkipsEmpty` | src/components/capture/CameraView.tsx:104-111 | Dropping the empty chunks does not change the joined blob |
| `Seqs.Filter` | src/store/albumStore.ts:112 | `filter` keeps exactly the elements that satisfy the predicate and never adds any |
| `Seqs.Flatten` | src/components/capture/CameraView.tsx:111 | `new Blob(chunks)` is empty exactly when every chunk is. It begins with the first chunk |
| `Outcomes.MessageOr` | src/store/albumStore.ts:30 | A thrown `Error` gives its message. Any other thrown value gives the fallback |
| `Outcomes.Truthy` | src/components/capture/CameraView.tsx:32 | A string-or-null value is truthy exactly when present and non-empty |
| `Text.IsSpace` | src/components/auth/RegisterForm.tsx:48 | The characters `\s` and `trim()` treat as white space |

## Left out

- HTTP is not modelled: the axios calls, bearer headers, `FormData` and the placeholder API URL. Only each call's outcome is an input. A response body is taken to have the declared type.
- Local storage is modelled as the two optional entries of `AuthStore.Storage`. Storage exceptions are not modelled. The catch around the initial user lookup cannot fire for a plain lookup.
- The 500 ms simulated delays of login and register are left out. Overlapping store actions are covered only in the sense that each `...Done` applies to whatever state exists when its request settles.
- `AuthStore.InheritedNames` holds the standard members of `Object.prototype`. A member that another script adds to `Object.prototype`, or one only some engines provide, is not modelled.
- `RegisterForm.Validate`: a password's length is counted in characters. JavaScript counts UTF-16 code units, so a password of astral-plane characters is shorter here than in the browser.
- Browser media APIs are foreign calls. Their results are inputs: stream acquisition, `play()`, canvas drawing and `toBlob` (a snapshot or none), `MediaRecorder` creation (created or not), and the recorded chunks. JPEG quality, codec options and resolution hints are not modelled.
- Stopping stream tracks is modelled only through its effect on a recording (`CameraView.ReleaseStream`). Releasing the camera device is not modelled. Overlapping camera starts race in the source, which has no staleness guard. Unmounting during a recording is unhandled in the source. The model does not invent cancellation for any of these.
- `CameraView.StopRecording` takes the recorder's final chunks as one batch. The browser's event order beyond "data, then stop" is not modelled.
- Object URLs for previews, `window.confirm`, `alert` and `console.error` are left out. An alert is the `alerted` flag of `CapturePage.SaveMedia`.
- Routing and redirects are reduced to result flags: `registered`, `signedIn` and `openAlbum`. `App.tsx`, `ProtectedRoute.tsx`, `RegisterPage.tsx`, and navigation in `AlbumPage.tsx` and `DashboardPage.tsx` are not part of this model.
- Pure presentation is not part of this model: the navbar, album and media grids, media item and viewer components, JSX and styling.
- `AlbumCard.HandleRename` can also be triggered by the input's blur. Whether a blur fires again when the input is removed after Enter depends on the browser, and the model treats each handler call on its own.
- `Text.IsSpace` is fixed to the ECMAScript white-space set. Unicode-version differences between engines are not modelled.
- The Retry button in the camera error panel re-lists devices (`CameraView.DevicesArrived`). The start effect depends only on the selected id, so an unchanged default device would not restart the camera even with the correction below. The corrected variant of the device listing is therefore not modelled.
- `CreateAlbumModal.SubmitDone` models the dialog on its own. In the application its only caller, `AlbumGrid.tsx` lines 26-29, awaits the dashboard's handler, which catches a failed create and only logs it (`DashboardPage.tsx` lines 19-25). So a failed create also clears and closes the dialog, and the dialog's failure message is never shown. While the album store loads, `AlbumGrid.tsx` lines 31-37 replace the whole grid, dialog included, with a spinner. Neither component is part of this model.

## Findings

| source | as written | input that shows it | evidently intended | confidence | as-written member | corrected member |
|---|---|---|---|---|---|---|
| src/components/capture/CameraView.tsx:36 | The camera start acts only when the preview element's reference is set. While an error is shown that element is not rendered (lines 133-153), so after one failed start every later start does nothing and the error stays | Two cameras are listed. The first start fails, for instance because the microphone is refused (`audio: true`, line 49), the camera is busy, or `play()` rejects. The user then allows the microphone and selects the other camera in the selector that lines 158-177 show for more than one device. The start finds no element, so the error remains and the camera is never ready | A later successful acquisition makes the camera ready and clears the error | medium; not executed | `CameraView.StartCameraAsWritten` (`CameraView.RetryNeverRecovers`, `CameraView.ErrorIsPermanent`, `CameraView.RestartAsWritten`, `CameraView.SwitchCamera`, `CameraView.DevicesArrived`) | `CameraView.StartCamera` (`CameraView.RetryRecovers`, `CameraView.RestartCorrected`, `CameraView.SwitchCameraCorrected`) |

=== FILE: album_card.dfy ===
/** An album tile's inline rename: the edit box, Enter/Escape, and the
    rename request it sends. */
module AlbumCard {
  import opened Outcomes
  import opened Types
  import opened Text

  datatype Card = Card(isEditing: bool, newName: string)

  /** The `onRename(id, name)` call the card makes */
  datatype RenameCall = RenameCall(id: string, name: string)

  datatype CardStep = CardStep(card: Card, call: Option<RenameCall>)

  /** A freshly shown card */
  function Show(album: Album): (r: Card)
    ensures !r.isEditing && r.newName == album.name
  {
    Card(false, album.name)
  }

  function StartEditing(c: Card): (r: Card)
    ensures r.isEditing && r.newName == c.newName
  {
    c.(isEditing := true)
  }

  function Edit(c: Card, text: string): (r: Card)
    ensures r.newName == text && r.isEditing == c.isEditing
  {
    c.(newName := text)
  }

  /** `handleRename`: the typed name, untrimmed, is sent only when it is not
      blank and differs from the album's name; editing ends either way */
  function HandleRename(album: Album, c: Card): (r: CardStep)
    ensures r.call.Some? <==> !AllSpace(c.newName) && c.newName != album.name
    ensures r.call.Some? ==> r.call.value == RenameCall(album.id, c.newName)
    ensures !r.card.isEditing && r.card.newName == c.newName
  {
    var call := if Trim(c.newName) != "" && c.newName != album.name then Some(RenameCall(album.id, c.newName)) else None;
    CardStep(c.(isEditing := false), call)
  }

  /** `handleKeyDown`: Enter is `handleRename`; Escape restores the album's name
      and ends editing without a call; any other key changes nothing */
  function HandleKeyDown(album: Album, c: Card, key: string): (r: CardStep)
    ensures key == "Enter" ==> r == HandleRename(album, c)
    ensures key == "Escape" ==> r == CardStep(Card(false, album.name), None)
    ensures key != "Enter" && key != "Escape" ==> r == CardStep(c, None)
  {
    if key == "Enter" then HandleRename(album, c)
    else if key == "Escape" then CardStep(c.(newName := album.name, isEditing := false), None)
    else CardStep(c, None)
  }

  /** Opening the editor and confirming without typing sends nothing */
  lemma UnchangedNameSendsNothing(album: Album)
    ensures HandleRename(album, StartEditing(Show(album))).call.None?
  {
  }

  /** Whatever was typed, Escape returns the card to how it was first shown
      and sends nothing */
  lemma EscapeUndoesEdit(album: Album, text: string)
    ensures HandleKeyDown(album, Edit(StartEditing(Show(album)), text), "Escape") == CardStep(Show(album), None)
  {
  }
}

=== FILE: album_store.dfy ===
/** The album store: the album list, the album being viewed, and the
    loading/error flags around each request. An action is `Begin`, then, once
    its request settles, the matching `...Done` function applied to the store
    as it is at that moment. */
module AlbumStore {
  import opened Outcomes
  import opened Types
  import Seqs

  datatype AlbumState = AlbumState(
    albums: seq<Album>,
    currentAlbum: Option<Album>,
    isLoading: bool,
    error: Option<string>)

  /** The store after a request settles, and how the action's promise settles */
  datatype Step<+T> = Step(state: AlbumState, result: Outcome<T>)

  const Initial := AlbumState([], None, false, None)

  const FetchFailed := "Failed to fetch albums"
  const CreateFailed := "Failed to create album"
  const RenameFailed := "Failed to rename album"
  const DeleteFailed := "Failed to delete album"

  /** The first update of every action: loading on, previous error cleared */
  function Begin(s: AlbumState): (r: AlbumState)
    ensures r.isLoading && r.error.None?
    ensures r.albums == s.albums && r.currentAlbum == s.currentAlbum
  {
    s.(isLoading := true, error := None)
  }

  /** The update every failed request makes: loading off, message recorded */
  function Failed(s: AlbumState, reason: Option<string>, fallback: string): (r: AlbumState)
    ensures !r.isLoading && r.error == Some(MessageOr(reason, fallback))
    ensures r.albums == s.albums && r.currentAlbum == s.currentAlbum
  {
    s.(isLoading := false, error := Some(MessageOr(reason, fallback)))
  }

  /** `fetchAlbums` settling with `response`; a failure is recorded, never rethrown */
  function FetchAlbumsDone(s: AlbumState, response: Outcome<seq<Album>>): (r: Step<()>)
    ensures r.result.Ok?
    ensures !r.state.isLoading && r.state.currentAlbum == s.currentAlbum
    ensures response.Ok? ==> r.state.albums == response.data && r.state.error == s.error
    ensures response.Err? ==>
      r.state.albums == s.albums && r.state.error == Some(MessageOr(response.reason, FetchFailed))
  {
    match response
    case Ok(albums) => Step(s.(albums := albums, isLoading := false), Ok(()))
    case Err(reason) => Step(Failed(s, reason, FetchFailed), Ok(()))
  }

  /** `createAlbum` settling with the server's answer: the new album goes at the
      end of the list and is returned; a failure is recorded and rethrown */
  function CreateAlbumDone(s: AlbumState, response: Outcome<Album>): (r: Step<Album>)
    ensures r.result == response
    ensures !r.state.isLoading && r.state.currentAlbum == s.currentAlbum
    ensures response.Ok? ==>
      && |r.state.albums| == |s.albums| + 1
      && r.state.albums[..|s.albums|] == s.albums
      && r.state.albums[|s.albums|] == response.data
      && r.state.error == s.error
    ensures response.Err? ==>
      r.state.albums == s.albums && r.state.error == Some(MessageOr(response.reason, CreateFailed))
  {
    match response
    case Ok(album) => Step(s.(albums := s.albums + [album], isLoading := false), Ok(album))
    case Err(reason) => Step(Failed(s, reason, CreateFailed), Err(reason))
  }

  /** The list with every album whose id is `id` renamed to `name` */
  function RenameInList(albums: seq<Album>, id: string, name: string): (r: seq<Album>)
    ensures |r| == |albums|
    ensures forall i :: 0 <= i < |albums| && albums[i].id == id ==> r[i] == albums[i].(name := name)
    ensures forall i :: 0 <= i < |albums| && albums[i].id != id ==> r[i] == albums[i]
  {
    if |albums| == 0 then []
    else
      var head := if albums[0].id == id then albums[0].(name := name) else albums[0];
      [head] + RenameInList(albums[1..], id, name)
  }

  /** Renaming keeps every id in place, so it never changes which albums a later
      rename or delete by id will hit */
  lemma RenameKeepsIds(albums: seq<Album>, id: string, name: string)
    ensures forall i :: 0 <= i < |albums| ==> RenameInList(albums, id, name)[i].id == albums[i].id
  {
  }

  /** Renaming an id that no album has changes nothing */
  lemma RenameAbsentId(albums: seq<Album>, id: string, name: string)
    requires forall a :: a in albums ==> a.id != id
    ensures RenameInList(albums, id, name) == albums
  {
  }

  /** Renaming back to the old name undoes a rename */
  lemma RenameBack(albums: seq<Album>, id: string, name: string, oldName: string)
    requires forall a :: a in albums && a.id == id ==> a.name == oldName
    ensures RenameInList(RenameInList(albums, id, name), id, oldName) == albums
  {
  }

  /** `renameAlbum` settling: the listed and the current album with that id get
      the new name, everything else stays; a failure is recorded and rethrown */
  function RenameAlbumDone(s: AlbumState, id: string, name: string, response: Outcome<()>): (r: Step<()>)
    ensures r.result == response && !r.state.isLoading
    ensures response.Ok? ==>
      && r.state.albums == RenameInList(s.albums, id, name)
      && r.state.error == s.error
      && (s.currentAlbum.Some? && s.currentAlbum.value.id == id ==>
            r.state.currentAlbum == Some(s.currentAlbum.value.(name := name)))
      && (s.currentAlbum.None? || s.currentAlbum.value.id != id ==>
            r.state.currentAlbum == s.currentAlbum)
    ensures response.Err? ==>
      && r.state.albums == s.albums && r.state.currentAlbum == s.currentAlbum
      && r.state.error == Some(MessageOr(response.reason, RenameFailed))
  {
    match response
    case Ok(_) =>
      var current :=
        match s.currentAlbum
        case Some(c) => if c.id == id then Some(c.(name := name)) else s.currentAlbum
        case None => None;
      Step(s.(albums := RenameInList(s.albums, id, name), currentAlbum := current, isLoading := false), response)
    case Err(reason) => Step(Failed(s, reason, RenameFailed), Err(reason))
  }

  /** The list without the albums whose id is `id` (`albums.filter(a => a.id !== id)`) */
  function WithoutId(albums: seq<Album>, id: string): (r: seq<Album>)
    ensures forall a :: a in r ==> a.id != id
    ensures forall a :: a in albums && a.id != id ==> a in r
    ensures forall a :: a in r ==> a in albums
  {
    Seqs.Filter(albums, (a: Album) => a.id != id)
  }

  /** The survivors keep their relative order: deleting from a concatenation
      deletes from each part */
  lemma WithoutIdSplits(front: seq<Album>, back: seq<Album>, id: string)
    ensures WithoutId(front + back, id) == WithoutId(front, id) + WithoutId(back, id)
  {
    Seqs.FilterAppend(front, back, (a: Album) => a.id != id);
  }

  /** Each surviving album keeps its number of copies */
  lemma WithoutIdCount(albums: seq<Album>, id: string, a: Album)
    ensures multiset(WithoutId(albums, id))[a] == if a.id != id then multiset(albums)[a] else 0
  {
    Seqs.FilterCount(albums, (x: Album) => x.id != id, a);
  }

  /** Deleting an id that no album has is the identity */
  lemma WithoutAbsentId(albums: seq<Album>, id: string)
    requires forall a :: a in albums ==> a.id != id
    ensures WithoutId(albums, id) == albums
  {
    Seqs.FilterKeepsAll(albums, (a: Album) => a.id != id);
  }

  /** `deleteAlbum` settling: the albums with that id leave the list, and the
      current album is dropped when it is the one deleted; a failure is
      recorded and rethrown */
  function DeleteAlbumDone(s: AlbumState, id: string, response: Outcome<()>): (r: Step<()>)
    ensures r.result == response && !r.state.isLoading
    ensures response.Ok? ==>
      && r.state.albums == WithoutId(s.albums, id)
      && r.state.error == s.error
      && (r.state.currentAlbum.None? <==> s.currentAlbum.None? || s.currentAlbum.value.id == id)
      && (r.state.currentAlbum.Some? ==> r.state.currentAlbum == s.currentAlbum)
    ensures response.Err? ==>
      && r.state.albums == s.albums && r.state.currentAlbum == s.currentAlbum
      && r.state.error == Some(MessageOr(response.reason, DeleteFailed))
  {
    match response
    case Ok(_) =>
      var current :=
        match s.currentAlbum
        case Some(c) => if c.id == id then None else s.currentAlbum
        case None => None;
      Step(s.(albums := WithoutId(s.albums, id), currentAlbum := current, isLoading := false), response)
    case Err(reason) => Step(Failed(s, reason, DeleteFailed), Err(reason))
  }

  /** Deleting a freshly created album by its id undoes the creation */
  lemma DeleteUndoesCreate(s: AlbumState, album: Album)
    requires forall a :: a in s.albums ==> a.id != album.id
    ensures var created := CreateAlbumDone(Begin(s), Ok(album)).state;
      DeleteAlbumDone(Begin(created), album.id, Ok(())).state.albums == s.albums
  {
    var created := CreateAlbumDone(Begin(s), Ok(album)).state;
    assert created.albums == s.albums + [album];
    WithoutIdSplits(s.albums, [album], album.id);
    WithoutAbsentId(s.albums, album.id);
    assert WithoutId([album], album.id) == [];
  }

  /** `setCurrentAlbum`: only the current album changes */
  function SetCurrentAlbum(s: AlbumState, album: Option<Album>): (r: AlbumState)
    ensures r.currentAlbum == album
    ensures r.albums == s.albums && r.isLoading == s.isLoading && r.error == s.error
  {
    s.(currentAlbum := album)
  }

  /** A failed fetch leaves no trace once a later fetch succeeds: only the
      error and loading flags differed, and the next action resets both */
  lemma RefetchForgetsFailure(s: AlbumState, reason: Option<string>, albums: seq<Album>)
    ensures var failed := FetchAlbumsDone(Begin(s), Err(reason)).state;
      FetchAlbumsDone(Begin(failed), Ok(albums)) == FetchAlbumsDone(Begin(s), Ok(albums))
  {
  }

  /** Selecting the previous album again restores the store */
  lemma SetCurrentAlbumBack(s: AlbumState, album: Option<Album>)
    ensures SetCurrentAlbum(SetCurrentAlbum(s, album), s.currentAlbum) == s
  {
  }
}

=== FILE: auth_store.dfy ===
/** The stand-in authentication store: an in-memory registry of users keyed by
    e-mail, a fixed password, and a session mirrored into two storage slots. */
module AuthStore {
  import opened Outcomes
  import opened Types
  import opened Text

  /** The users known to the page, keyed by e-mail */
  type Registry = map<string, User>

  /** The registry every page load starts from */
  const DummyUsers: Registry := map["test@example.com" := User("1", "Test User", "test@example.com")]

  /** The one password every registered user signs in with */
  const Password := "password"
  const DummyToken := "dummy-jwt-token"
  const InvalidCredentials := "Invalid credentials"
  const UserExists := "User already exists"

  /** The names a plain object such as the registry inherits from
      `Object.prototype`: section 20.1.3 of ECMA-262 and the legacy accessors
      of its Annex B.2.2. Looking any of them up yields a function or an
      object, which is truthy. */
  const InheritedNames: set<string> := {
    "constructor", "hasOwnProperty", "isPrototypeOf", "propertyIsEnumerable",
    "toLocaleString", "toString", "valueOf", "__proto__",
    "__defineGetter__", "__defineSetter__", "__lookupGetter__", "__lookupSetter__"}

  /** A truthy value `DUMMY_USERS[key]` can yield: the user filed under the
      key, or a member every plain object inherits */
  datatype Entry = UserEntry(user: User) | InheritedMember(name: string)

  /** `DUMMY_USERS[key]`: an own entry shadows an inherited member of the same
      name; a key that is neither yields `undefined`, here `None` */
  function Lookup(reg: Registry, key: string): (r: Option<Entry>)
    ensures r.None? <==> key !in reg && key !in InheritedNames
    ensures key in reg ==> r == Some(UserEntry(reg[key]))
    ensures key !in reg && key in InheritedNames ==> r == Some(InheritedMember(key))
  {
    if key in reg then Some(UserEntry(reg[key]))
    else if key in InheritedNames then Some(InheritedMember(key))
    else None
  }

  /** `s` has no '@' */
  predicate NoAt(s: string)
  {
    forall i :: 0 <= i < |s| ==> s[i] != '@'
  }

  /** No inherited name contains '@' */
  lemma InheritedNamesHaveNoAt()
    ensures forall k :: k in InheritedNames ==> NoAt(k)
  {
  }

  /** A key with an '@', such as every key the e-mail pattern accepts, is
      never an inherited name, so the lookup finds it exactly when the
      registry holds it */
  lemma PatternKeysAreOwn(reg: Registry, key: string)
    requires !NoAt(key)
    ensures Lookup(reg, key).Some? <==> key in reg
  {
    InheritedNamesHaveNoAt();
  }

  /** The `token` and `userEmail` entries of the browser's local storage */
  datatype Storage = Storage(token: Option<string>, userEmail: Option<string>)

  /** `user` holds whatever the registry lookup yielded */
  datatype Session = Session(user: Option<Entry>, token: Option<string>, isAuthenticated: bool, isLoading: bool)

  /** Everything the store reads and writes: the registry, storage and session */
  datatype Auth = Auth(registry: Registry, storage: Storage, session: Session)

  /** The store after an action, and how the action's promise settles */
  datatype Step = Step(auth: Auth, result: Outcome<()>)

  /** The store as a page load builds it from what storage holds: signed in
      exactly when a non-empty token is stored; the stored e-mail is looked up
      in the seeded registry only then */
  function Load(storage: Storage): (a: Auth)
    ensures a.registry == DummyUsers && a.storage == storage
    ensures a.session.token == storage.token && !a.session.isLoading
    ensures a.session.isAuthenticated <==> Truthy(storage.token)
    ensures a.session.user.Some? <==>
      && Truthy(storage.token) && Truthy(storage.userEmail)
      && (storage.userEmail.value in DummyUsers || storage.userEmail.value in InheritedNames)
    ensures a.session.user.Some? ==> a.session.user == Lookup(DummyUsers, storage.userEmail.value)
  {
    var user :=
      if Truthy(storage.token) && Truthy(storage.userEmail) then Lookup(DummyUsers, storage.userEmail.value)
      else None;
    Auth(DummyUsers, storage, Session(user, storage.token, Truthy(storage.token), false))
  }

  /** The first update of `login` and `register` */
  function Begin(a: Auth): (r: Auth)
    ensures r.session.isLoading
    ensures r.registry == a.registry && r.storage == a.storage
    ensures r.session.user == a.session.user && r.session.token == a.session.token
    ensures r.session.isAuthenticated == a.session.isAuthenticated
  {
    a.(session := a.session.(isLoading := true))
  }

  /** `login` after its simulated delay: it succeeds exactly when the lookup
      finds something and the password is the fixed one, and then signs in
      whatever was found; otherwise storage is cleared, the session is left as
      it was, and it throws */
  function LoginDone(a: Auth, email: string, password: string): (r: Step)
    ensures r.result.Ok? <==> (email in a.registry || email in InheritedNames) && password == Password
    ensures r.auth.registry == a.registry && !r.auth.session.isLoading
    ensures r.result.Ok? ==>
      && r.auth.session.user == Lookup(a.registry, email)
      && r.auth.session.token == Some(DummyToken)
      && r.auth.session.isAuthenticated
      && r.auth.storage == Storage(Some(DummyToken), Some(email))
    ensures r.result.Err? ==>
      && r.result.reason == Some(InvalidCredentials)
      && r.auth.storage == Storage(None, None)
      && r.auth.session.user == a.session.user
      && r.auth.session.token == a.session.token
      && r.auth.session.isAuthenticated == a.session.isAuthenticated
  {
    var found := Lookup(a.registry, email);
    if found.Some? && password == Password then
      Step(Auth(a.registry, Storage(Some(DummyToken), Some(email)),
                Session(found, Some(DummyToken), true, false)),
           Ok(()))
    else
      Step(Auth(a.registry, Storage(None, None), a.session.(isLoading := false)),
           Err(Some(InvalidCredentials)))
  }

  /** `register` after its simulated delay: an e-mail the lookup does not find
      joins the registry with the next sequential id (the password is not
      kept); one it finds, registered or inherited, throws and changes nothing
      but the loading flag. It never signs anyone in. */
  function RegisterDone(a: Auth, name: string, email: string, password: string): (r: Step)
    ensures r.result.Ok? <==> email !in a.registry && email !in InheritedNames
    ensures r.auth.storage == a.storage && !r.auth.session.isLoading
    ensures r.auth.session.user == a.session.user && r.auth.session.token == a.session.token
    ensures r.auth.session.isAuthenticated == a.session.isAuthenticated
    ensures r.result.Err? ==> r.result.reason == Some(UserExists) && r.auth.registry == a.registry
    ensures r.result.Ok? ==>
      && r.auth.registry.Keys == a.registry.Keys + {email}
      && |r.auth.registry| == |a.registry| + 1
      && r.auth.registry[email] == User(NatToString(|a.registry| + 1), name, email)
      && forall e :: e in a.registry ==> r.auth.registry[e] == a.registry[e]
  {
    if Lookup(a.registry, email).Some? then
      Step(a.(session := a.session.(isLoading := false)), Err(Some(UserExists)))
    else
      var user := User(NatToString(|a.registry| + 1), name, email);
      Step(a.(registry := a.registry[email := user], session := a.session.(isLoading := false)), Ok(()))
  }

  /** `logout`: storage and session are cleared; the registry is kept */
  function Logout(a: Auth): (r: Auth)
    ensures r.storage == Storage(None, None)
    ensures r.session.user.None? && r.session.token.None? && !r.session.isAuthenticated
    ensures r.session.isLoading == a.session.isLoading && r.registry == a.registry
  {
    Auth(a.registry, Storage(None, None), a.session.(user := None, token := None, isAuthenticated := false))
  }

  /** `id` is the decimal form of one of 1, ..., n */
  ghost predicate NumberedUpTo(id: string, n: nat)
  {
    exists k :: 1 <= k <= n && id == NatToString(k)
  }

  /** The registry's shape: every user is filed under its own e-mail, and the ids
      are distinct numbers from 1 up to the number of users */
  ghost predicate WellFormed(reg: Registry)
  {
    FiledByEmail(reg) && Numbered(reg) && DistinctIds(reg)
  }

  ghost predicate FiledByEmail(reg: Registry)
  {
    forall e :: e in reg ==> reg[e].email == e
  }

  ghost predicate Numbered(reg: Registry)
  {
    forall e :: e in reg ==> NumberedUpTo(reg[e].id, |reg|)
  }

  ghost predicate DistinctIds(reg: Registry)
  {
    forall e, f :: e in reg && f in reg && e != f ==> reg[e].id != reg[f].id
  }

  lemma DummyUsersWellFormed()
    ensures WellFormed(DummyUsers)
  {
    assert NatToString(1) == "1";
    assert DummyUsers.Keys == {"test@example.com"};
  }

  /** Filing a new user under a new e-mail with the next id keeps the registry
      well formed: that id is one no existing user has */
  lemma InsertKeepsWellFormed(reg: Registry, name: string, email: string)
    requires WellFormed(reg) && email !in reg
    ensures WellFormed(reg[email := User(NatToString(|reg| + 1), name, email)])
  {
  }

  /** Registration keeps the registry well formed */
  lemma RegisterKeepsWellFormed(a: Auth, name: string, email: string, password: string)
    requires WellFormed(a.registry)
    ensures WellFormed(RegisterDone(a, name, email, password).auth.registry)
  {
    if email !in a.registry && email !in InheritedNames {
      InsertKeepsWellFormed(a.registry, name, email);
    }
  }

  /** Right after a successful registration, the new e-mail signs in with the
      fixed password — and with no other, whatever password was registered */
  lemma RegisteredUserSignsIn(a: Auth, name: string, email: string, password: string, attempt: string)
    requires RegisterDone(a, name, email, password).result.Ok?
    ensures var a' := RegisterDone(a, name, email, password).auth;
      LoginDone(Begin(a'), email, attempt).result.Ok? <==> attempt == Password
  {
  }

  /** After logging out, a successful login signs the same registry entry in again */
  lemma LogoutThenLogin(a: Auth, email: string)
    requires email in a.registry
    ensures var r := LoginDone(Begin(Logout(a)), email, Password);
      r.result.Ok? && r.auth.session.user == Some(UserEntry(a.registry[email]))
  {
  }

  /** The registry as the page can make it: the seeded user is still filed as
      seeded, and no own key is an inherited name (registration refuses those) */
  ghost predicate ExtendsSeed(reg: Registry)
  {
    && (forall e :: e in DummyUsers ==> e in reg && reg[e] == DummyUsers[e])
    && (forall e :: e in reg ==> e !in InheritedNames)
  }

  /** Registration keeps the seed and never files an inherited name */
  lemma RegisterKeepsSeed(a: Auth, name: string, email: string, password: string)
    requires ExtendsSeed(a.registry)
    ensures ExtendsSeed(RegisterDone(a, name, email, password).auth.registry)
  {
  }

  /** Reloading the page after a successful login: the stored token signs the
      session in again, and the stored e-mail finds the same user when it is a
      seeded one. A user registered since the last load is gone after it,
      because the registry starts over from the seed. */
  lemma ReloadAfterLogin(a: Auth, email: string, password: string)
    requires ExtendsSeed(a.registry)
    requires LoginDone(a, email, password).result.Ok?
    ensures var signedIn := LoginDone(a, email, password).auth;
      var reloaded := Load(signedIn.storage).session;
      && reloaded.token == signedIn.session.token
      && reloaded.isAuthenticated
      && (email in DummyUsers || email in InheritedNames ==> reloaded.user == signedIn.session.user)
      && (email !in DummyUsers && email !in InheritedNames ==> reloaded.user.None?)
  {
  }
}

=== FILE: camera_view.dfy ===
/** The capture controller: camera start on device selection, photo capture,
    and video recording as a buffer of chunks joined on stop. The browser's
    answers (stream acquisition, canvas snapshot, recorder creation, recorded
    chunks) are inputs. */
module CameraView {
  import opened Outcomes
  import opened Types
  import Seqs
  import DeviceStore

  datatype Camera = Camera(
    isCameraReady: bool,
    isRecording: bool,
    error: Option<string>,
    hasRecorder: bool,     // a MediaRecorder has been created
    chunks: seq<Bytes>)    // the recorded chunks kept so far

  const Initial := Camera(false, false, None, false, [])

  const CameraUnavailable := "Could not access camera. Please check permissions."

  /** The preview element, and so the reference to it, exists only while no
      error message is shown in its place */
  predicate VideoMounted(c: Camera)
  {
    c.error.None?
  }

  /** A ready camera shows no error */
  predicate Consistent(c: Camera)
  {
    c.isCameraReady ==> c.error.None?
  }

  /** The camera start as written: it does nothing without a (non-empty)
      device id or while the preview element is not mounted; otherwise a
      successful acquisition makes the camera ready and a failed one shows the
      error */
  function StartCameraAsWritten(c: Camera, deviceId: Option<string>, acquired: Outcome<()>): (r: Camera)
    ensures !Truthy(deviceId) || !VideoMounted(c) ==> r == c
    ensures Truthy(deviceId) && VideoMounted(c) && acquired.Ok? ==> r.isCameraReady && r.error.None?
    ensures Truthy(deviceId) && VideoMounted(c) && acquired.Err? ==>
      !r.isCameraReady && r.error == Some(CameraUnavailable)
    ensures r.isRecording == c.isRecording && r.hasRecorder == c.hasRecorder && r.chunks == c.chunks
  {
    if !Truthy(deviceId) || !VideoMounted(c) then c
    else if acquired.Ok? then c.(isCameraReady := true, error := None)
    else c.(isCameraReady := false, error := Some(CameraUnavailable))
  }

  /** One device change: the new id, how acquiring its stream went, and the
      last chunks a running recorder delivers when its tracks are stopped */
  datatype Attempt = Attempt(deviceId: Option<string>, acquired: Outcome<()>, pending: seq<Bytes>)

  /** Restarts one after another, as device changes trigger them; the videos
      that ended recordings hand on are not collected here */
  function StartAllAsWritten(c: Camera, attempts: seq<Attempt>): (r: Camera)
    ensures r.hasRecorder == c.hasRecorder
    ensures !c.isRecording ==> !r.isRecording
    ensures Consistent(c) ==> Consistent(r)
    decreases |attempts|
  {
    if |attempts| == 0 then c
    else
      var a := attempts[0];
      StartAllAsWritten(RestartAsWritten(c, a.deviceId, a.acquired, a.pending).camera, attempts[1..])
  }

  /** Once the error is shown, no later device change changes anything */
  lemma {:induction false} ErrorIsPermanent(c: Camera, attempts: seq<Attempt>)
    requires c.error.Some?
    ensures StartAllAsWritten(c, attempts) == c
  {
    if |attempts| > 0 {
      var a := attempts[0];
      ErrorIsPermanent(RestartAsWritten(c, a.deviceId, a.acquired, a.pending).camera, attempts[1..]);
    }
  }

  /** The concrete case: permission refused, then granted for another camera;
      the error stays and the camera never becomes ready */
  lemma RetryNeverRecovers()
    ensures var failed := StartCameraAsWritten(Initial, Some("front"), Err(None));
      var retried := StartCameraAsWritten(failed, Some("back"), Ok(()));
      retried.error == Some(CameraUnavailable) && !retried.isCameraReady
  {
  }

  /** The camera start as intended: it does nothing without a (non-empty)
      device id; otherwise a successful acquisition makes the camera ready and
      clears any earlier error, and a failed one shows the error */
  function StartCamera(c: Camera, deviceId: Option<string>, acquired: Outcome<()>): (r: Camera)
    ensures !Truthy(deviceId) ==> r == c
    ensures Truthy(deviceId) && acquired.Ok? ==> r.isCameraReady && r.error.None?
    ensures Truthy(deviceId) && acquired.Err? ==> !r.isCameraReady && r.error == Some(CameraUnavailable)
    ensures r.isRecording == c.isRecording && r.hasRecorder == c.hasRecorder && r.chunks == c.chunks
    ensures Consistent(r) || r == c
  {
    if !Truthy(deviceId) then c
    else if acquired.Ok? then c.(isCameraReady := true, error := None)
    else c.(isCameraReady := false, error := Some(CameraUnavailable))
  }

  /** With the correction, a retry that acquires the camera always recovers */
  lemma RetryRecovers(c: Camera, deviceId: string)
    requires deviceId != ""
    ensures var r := StartCamera(c, Some(deviceId), Ok(()));
      r.isCameraReady && r.error.None? && VideoMounted(r)
  {
  }

  /** `capturePhoto`: the snapshot is handed on only when the camera is ready
      and the browser produced an image; nothing else changes */
  function CapturePhoto(c: Camera, snapshot: Option<Bytes>): (photo: Option<Bytes>)
    ensures photo.Some? ==> c.isCameraReady && VideoMounted(c) && photo == snapshot
    ensures c.isCameraReady && VideoMounted(c) ==> photo == snapshot
  {
    if !VideoMounted(c) || !c.isCameraReady then None else snapshot
  }

  /** `startVideoRecording`: nothing unless the camera is ready; otherwise the
      chunk buffer is emptied and, when the browser creates the recorder,
      recording starts */
  function StartRecording(c: Camera, recorderCreated: bool): (r: Camera)
    ensures !(c.isCameraReady && VideoMounted(c)) ==> r == c
    ensures c.isCameraReady && VideoMounted(c) ==>
      && r.chunks == []
      && (recorderCreated ==> r.isRecording && r.hasRecorder)
      && (!recorderCreated ==> r.isRecording == c.isRecording && r.hasRecorder == c.hasRecorder)
    ensures r.isCameraReady == c.isCameraReady && r.error == c.error
  {
    if !VideoMounted(c) || !c.isCameraReady then c
    else if !recorderCreated then c.(chunks := [])
    else c.(chunks := [], hasRecorder := true, isRecording := true)
  }

  /** `ondataavailable`: a non-empty chunk joins the end of the buffer; an empty
      one is dropped */
  function DataAvailable(c: Camera, chunk: Bytes): (r: Camera)
    ensures |chunk| > 0 ==> r.chunks == c.chunks + [chunk]
    ensures |chunk| == 0 ==> r == c
    ensures r == c.(chunks := r.chunks)
  {
    if |chunk| > 0 then c.(chunks := c.chunks + [chunk]) else c
  }

  /** The recorder delivering `arrived` in order */
  function DeliverAll(c: Camera, arrived: seq<Bytes>): (r: Camera)
    ensures r.chunks == c.chunks + Seqs.Filter(arrived, Seqs.NonEmpty)
    ensures r == c.(chunks := r.chunks)
    decreases |arrived|
  {
    if |arrived| == 0 then c
    else DeliverAll(DataAvailable(c, arrived[0]), arrived[1..])
  }

  datatype Stopped = Stopped(camera: Camera, video: Option<Bytes>)

  /** `stopVideoRecording` and the recorder's stop: only a recording recorder
      stops; it delivers its last chunks `pending`, then the video handed on is
      every chunk of the buffer joined in order, and recording ends */
  function StopRecording(c: Camera, pending: seq<Bytes>): (r: Stopped)
    ensures r.video.Some? <==> c.hasRecorder && c.isRecording
    ensures r.video.None? ==> r.camera == c
    ensures r.video.Some? ==>
      && r.video.value == Seqs.Flatten(c.chunks + pending)
      && !r.camera.isRecording
      && r.camera.isCameraReady == c.isCameraReady && r.camera.error == c.error
    ensures r.camera.hasRecorder == c.hasRecorder
  {
    if c.hasRecorder && c.isRecording then
      var d := DeliverAll(c, pending);
      Seqs.FlattenAppend(c.chunks, Seqs.Filter(pending, Seqs.NonEmpty));
      Seqs.FlattenSkipsEmpty(pending);
      Seqs.FlattenAppend(c.chunks, pending);
      Stopped(d.(isRecording := false), Some(Seqs.Flatten(d.chunks)))
    else
      Stopped(c, None)
  }

  /** A whole recording session from a ready camera: the video handed on is
      exactly the chunks the recorder produced, in the order it produced them */
  lemma {:induction false} SessionKeepsOrder(c: Camera, during: seq<Bytes>, pending: seq<Bytes>)
    requires c.isCameraReady && c.error.None?
    ensures var recording := DeliverAll(StartRecording(c, true), during);
      StopRecording(recording, pending).video == Some(Seqs.Flatten(during + pending))
  {
    var started := StartRecording(c, true);
    var recording := DeliverAll(started, during);
    assert recording.chunks == Seqs.Filter(during, Seqs.NonEmpty);
    Seqs.FlattenAppend(recording.chunks, pending);
    Seqs.FlattenSkipsEmpty(during);
    Seqs.FlattenAppend(during, pending);
  }

  /** Stopping straight after starting hands on an empty video */
  lemma StopAtOnce(c: Camera)
    requires c.isCameraReady && c.error.None?
    ensures StopRecording(StartRecording(c, true), []).video == Some([])
  {
  }

  /** Which buttons are usable */
  predicate TakePhotoEnabled(c: Camera) { c.isCameraReady && !c.isRecording }
  predicate RecordShown(c: Camera) { !c.isRecording }
  predicate RecordEnabled(c: Camera) { c.isCameraReady }
  predicate StopShown(c: Camera) { c.isRecording }

  /** An enabled Take Photo button always hands the snapshot on */
  lemma TakePhotoWorksWhenEnabled(c: Camera, snapshot: Option<Bytes>)
    requires Consistent(c) && TakePhotoEnabled(c)
    ensures CapturePhoto(c, snapshot) == snapshot
  {
  }

  /** Every controller step keeps a ready camera free of errors */
  lemma StepsKeepConsistent(c: Camera, deviceId: Option<string>, acquired: Outcome<()>,
                            created: bool, chunk: Bytes, pending: seq<Bytes>)
    requires Consistent(c)
    ensures Consistent(StartCameraAsWritten(c, deviceId, acquired))
    ensures Consistent(StartCamera(c, deviceId, acquired))
    ensures Consistent(RestartAsWritten(c, deviceId, acquired, pending).camera)
    ensures Consistent(StartRecording(c, created))
    ensures Consistent(DataAvailable(c, chunk))
    ensures Consistent(StopRecording(c, pending).camera)
  {
  }

  /** The two recording buttons take turns: Record is shown exactly while Stop
      is not. Pressing an enabled Record with a recorder created swaps in Stop,
      and pressing Stop on that recording hands the video on and swaps Record
      back in, still enabled. */
  lemma RecordButtonsTakeTurns(c: Camera, pending: seq<Bytes>)
    requires Consistent(c)
    ensures RecordShown(c) <==> !StopShown(c)
    ensures RecordShown(c) && RecordEnabled(c) ==>
      var started := StartRecording(c, true);
      && StopShown(started)
      && var stopped := StopRecording(started, pending);
         stopped.video.Some? && RecordShown(stopped.camera) && RecordEnabled(stopped.camera)
  {
  }

  /** The effect's cleanup, and the first lines of the start: every track of
      the stream on the preview is stopped. A recorder recording that stream
      then stops by itself, delivering its last chunks `pending`, and its
      `onstop` hands the video on and ends the recording. Without a preview
      there is no stream to stop. */
  function ReleaseStream(c: Camera, pending: seq<Bytes>): (r: Stopped)
    ensures r.video.Some? <==> VideoMounted(c) && c.hasRecorder && c.isRecording
    ensures r.video.Some? ==> r.video.value == Seqs.Flatten(c.chunks + pending)
    ensures r.video.None? ==> r.camera == c
    ensures VideoMounted(c) && c.hasRecorder ==> !r.camera.isRecording
    ensures r.camera.isCameraReady == c.isCameraReady && r.camera.error == c.error
    ensures r.camera.hasRecorder == c.hasRecorder
  {
    if VideoMounted(c) then StopRecording(c, pending) else Stopped(c, None)
  }

  /** The start effect re-running on a new device id, as written: the old
      stream is released (ending any recording of it), then the camera start
      runs. Without a preview nothing at all happens. */
  function RestartAsWritten(c: Camera, deviceId: Option<string>, acquired: Outcome<()>, pending: seq<Bytes>): (r: Stopped)
    ensures !VideoMounted(c) ==> r == Stopped(c, None)
    ensures r.video.Some? <==> VideoMounted(c) && c.hasRecorder && c.isRecording
    ensures r.video.Some? ==> r.video.value == Seqs.Flatten(c.chunks + pending)
    ensures VideoMounted(c) && c.hasRecorder ==> !r.camera.isRecording
    ensures r.video.None? ==> r.camera.isRecording == c.isRecording && r.camera.chunks == c.chunks
    ensures r.camera.hasRecorder == c.hasRecorder
    ensures Truthy(deviceId) && VideoMounted(c) && acquired.Ok? ==> r.camera.isCameraReady && r.camera.error.None?
    ensures Truthy(deviceId) && VideoMounted(c) && acquired.Err? ==>
      !r.camera.isCameraReady && r.camera.error == Some(CameraUnavailable)
    ensures !Truthy(deviceId) ==> r.camera.isCameraReady == c.isCameraReady && r.camera.error == c.error
  {
    var released := ReleaseStream(c, pending);
    Stopped(StartCameraAsWritten(released.camera, deviceId, acquired), released.video)
  }

  /** The same re-run with the corrected start */
  function RestartCorrected(c: Camera, deviceId: Option<string>, acquired: Outcome<()>, pending: seq<Bytes>): (r: Stopped)
    ensures r.video.Some? <==> VideoMounted(c) && c.hasRecorder && c.isRecording
    ensures r.video.Some? ==> r.video.value == Seqs.Flatten(c.chunks + pending)
    ensures VideoMounted(c) && c.hasRecorder ==> !r.camera.isRecording
    ensures r.video.None? ==> r.camera.isRecording == c.isRecording && r.camera.chunks == c.chunks
    ensures Truthy(deviceId) && acquired.Ok? ==> r.camera.isCameraReady && r.camera.error.None?
    ensures Truthy(deviceId) && acquired.Err? ==>
      !r.camera.isCameraReady && r.camera.error == Some(CameraUnavailable)
  {
    var released := ReleaseStream(c, pending);
    Stopped(StartCamera(released.camera, deviceId, acquired), released.video)
  }

  /** The device store and the camera after a device change, and the video an
      interrupted recording handed on, if any */
  datatype Switched = Switched(devices: DeviceStore.DeviceState, camera: Camera, video: Option<Bytes>)

  /** `switchCamera`: the store selects `deviceId`, and the start effect
      re-runs, as written, only when the selection actually changed. A
      recording in progress ends and hands on what it recorded. While the error
      is shown nothing happens, so switching cameras never recovers. */
  function SwitchCamera(d: DeviceStore.DeviceState, c: Camera, deviceId: string,
                        acquired: Outcome<()>, pending: seq<Bytes>): (r: Switched)
    ensures r.devices.currentDeviceId == Some(deviceId) && r.devices.devices == d.devices
    ensures d.currentDeviceId == Some(deviceId) || !VideoMounted(c) ==> r.camera == c && r.video.None?
    ensures d.currentDeviceId != Some(deviceId) && deviceId != "" && VideoMounted(c) && acquired.Ok? ==>
      r.camera.isCameraReady && r.camera.error.None?
    ensures d.currentDeviceId != Some(deviceId) && deviceId != "" && VideoMounted(c) && acquired.Err? ==>
      !r.camera.isCameraReady && r.camera.error == Some(CameraUnavailable)
    ensures r.video.Some? <==>
      d.currentDeviceId != Some(deviceId) && VideoMounted(c) && c.hasRecorder && c.isRecording
    ensures r.video.Some? ==> r.video.value == Seqs.Flatten(c.chunks + pending) && !r.camera.isRecording
    ensures r.video.None? ==> r.camera.isRecording == c.isRecording && r.camera.chunks == c.chunks
  {
    var d' := DeviceStore.SetCurrentDevice(d, deviceId);
    if d.currentDeviceId == Some(deviceId) then Switched(d', c, None)
    else
      var restarted := RestartAsWritten(c, Some(deviceId), acquired, pending);
      Switched(d', restarted.camera, restarted.video)
  }

  /** The same switch with the corrected start: selecting another camera that
      is acquired makes the camera ready, whatever error was shown before */
  function SwitchCameraCorrected(d: DeviceStore.DeviceState, c: Camera, deviceId: string,
                                 acquired: Outcome<()>, pending: seq<Bytes>): (r: Switched)
    ensures r.devices.currentDeviceId == Some(deviceId) && r.devices.devices == d.devices
    ensures d.currentDeviceId == Some(deviceId) ==> r.camera == c && r.video.None?
    ensures d.currentDeviceId != Some(deviceId) && deviceId != "" && acquired.Ok? ==>
      r.camera.isCameraReady && r.camera.error.None?
    ensures d.currentDeviceId != Some(deviceId) && deviceId != "" && acquired.Err? ==>
      !r.camera.isCameraReady && r.camera.error == Some(CameraUnavailable)
    ensures r.video.Some? <==>
      d.currentDeviceId != Some(deviceId) && VideoMounted(c) && c.hasRecorder && c.isRecording
    ensures r.video.Some? ==> r.video.value == Seqs.Flatten(c.chunks + pending) && !r.camera.isRecording
  {
    var d' := DeviceStore.SetCurrentDevice(d, deviceId);
    if d.currentDeviceId == Some(deviceId) then Switched(d', c, None)
    else
      var restarted := RestartCorrected(c, Some(deviceId), acquired, pending);
      Switched(d', restarted.camera, restarted.video)
  }

  /** The device list arriving (on mount or on Retry): the start effect
      re-runs, as written, only when the default selection differs from the
      previous one. While the error is shown nothing happens, so Retry never
      recovers. */
  function DevicesArrived(d: DeviceStore.DeviceState, c: Camera, listed: Outcome<seq<Device>>,
                          acquired: Outcome<()>, pending: seq<Bytes>): (r: Switched)
    ensures r.devices == DeviceStore.GetDevicesDone(d, listed)
    ensures r.devices.currentDeviceId == d.currentDeviceId || !VideoMounted(c) ==> r.camera == c && r.video.None?
    ensures r.devices.currentDeviceId != d.currentDeviceId && Truthy(r.devices.currentDeviceId)
            && VideoMounted(c) && acquired.Ok? ==>
      r.camera.isCameraReady && r.camera.error.None?
    ensures r.devices.currentDeviceId != d.currentDeviceId && Truthy(r.devices.currentDeviceId)
            && VideoMounted(c) && acquired.Err? ==>
      !r.camera.isCameraReady && r.camera.error == Some(CameraUnavailable)
    ensures r.video.Some? <==>
      r.devices.currentDeviceId != d.currentDeviceId && VideoMounted(c) && c.hasRecorder && c.isRecording
    ensures r.video.Some? ==> r.video.value == Seqs.Flatten(c.chunks + pending) && !r.camera.isRecording
    ensures r.video.None? ==> r.camera.isRecording == c.isRecording && r.camera.chunks == c.chunks
  {
    var d' := DeviceStore.GetDevicesDone(d, listed);
    if d'.currentDeviceId == d.currentDeviceId then Switched(d', c, None)
    else
      var restarted := RestartAsWritten(c, d'.currentDeviceId, acquired, pending);
      Switched(d', restarted.camera, restarted.video)
  }

  /** Switching cameras in the middle of a recording hands on the same video
      that pressing Stop would have: every chunk recorded so far, in order */
  lemma SwitchHandsOnRecording(d: DeviceStore.DeviceState, c: Camera, during: seq<Bytes>,
                               deviceId: string, acquired: Outcome<()>, pending: seq<Bytes>)
    requires c.isCameraReady && c.error.None? && d.currentDeviceId != Some(deviceId)
    ensures var recording := DeliverAll(StartRecording(c, true), during);
      var r := SwitchCamera(d, recording, deviceId, acquired, pending);
      && r.video == StopRecording(recording, pending).video
      && r.video == Some(Seqs.Flatten(during + pending))
      && !r.camera.isRecording
  {
    SessionKeepsOrder(c, during, pending);
  }
}

=== FILE: capture_page.dfy ===
/** The capture page: which album a capture goes to, the capture awaiting a
    decision, and saving it as an upload named after the moment it is saved. */
module CapturePage {
  import opened Outcomes
  import opened Types
  import opened Text
  import MediaStore

  datatype Captured = Captured(blob: Bytes, kind: MediaKind)

  /** `selectedAlbumId` ("" when none) and the capture on screen, if any */
  datatype Page = Page(selectedAlbumId: string, captured: Option<Captured>)

  const Initial := Page("", None)

  /** The album-selection effect: an album id passed in the navigation state
      wins; otherwise the first album is picked when none is selected yet */
  function AutoSelect(navAlbumId: Option<string>, albums: seq<Album>, selected: string): (r: string)
    ensures Truthy(navAlbumId) ==> r == navAlbumId.value
    ensures !Truthy(navAlbumId) && selected != "" ==> r == selected
    ensures !Truthy(navAlbumId) && selected == "" && |albums| > 0 ==> r == albums[0].id
    ensures !Truthy(navAlbumId) && |albums| == 0 ==> r == selected
  {
    if Truthy(navAlbumId) then navAlbumId.value
    else if |albums| > 0 && selected == "" then albums[0].id
    else selected
  }

  /** The effect re-runs when the selection changes; a second run changes
      nothing more, so it settles after one update */
  lemma AutoSelectSettles(navAlbumId: Option<string>, albums: seq<Album>, selected: string)
    ensures var once := AutoSelect(navAlbumId, albums, selected);
      AutoSelect(navAlbumId, albums, once) == once
  {
  }

  /** `handlePhotoCapture` and `handleVideoCapture` */
  function Capture(p: Page, blob: Bytes, kind: MediaKind): (r: Page)
    ensures r.captured == Some(Captured(blob, kind)) && r.selectedAlbumId == p.selectedAlbumId
  {
    p.(captured := Some(Captured(blob, kind)))
  }

  function Extension(kind: MediaKind): (ext: string)
    ensures ext == "jpg" <==> kind == Image
    ensures ext == "webm" <==> kind == Video
  {
    match kind
    case Image => "jpg"
    case Video => "webm"
  }

  function MimeType(kind: MediaKind): (mime: string)
    ensures mime == "image/jpeg" <==> kind == Image
    ensures mime == "video/webm" <==> kind == Video
  {
    match kind
    case Image => "image/jpeg"
    case Video => "video/webm"
  }

  /** Extension and MIME type always describe the same format */
  lemma ExtensionMatchesMime(kind: MediaKind)
    ensures Extension(kind) == "jpg" <==> MimeType(kind) == "image/jpeg"
    ensures Extension(kind) == "webm" <==> MimeType(kind) == "video/webm"
    ensures Extension(kind) == "jpg" <==> kind == Image
  {
  }

  const FilePrefix := "capture_"

  /** `capture_<timestamp with ':' turned into '-'>.<ext>` */
  function FileName(timestamp: string, kind: MediaKind): (r: string)
    ensures |r| == |FilePrefix| + |timestamp| + 1 + |Extension(kind)|
    ensures r[..|FilePrefix|] == FilePrefix
    ensures r[|r| - |Extension(kind)| - 1..] == "." + Extension(kind)
    ensures ':' !in r
    ensures forall i :: 0 <= i < |timestamp| ==>
      r[|FilePrefix| + i] == (if timestamp[i] == ':' then '-' else timestamp[i])
  {
    var stamp := ReplaceAll(timestamp, ':', '-');
    ReplaceAllRemoves(timestamp, ':', '-');
    var r := FilePrefix + stamp + "." + Extension(kind);
    assert r[|r| - |Extension(kind)| - 1..] == "." + Extension(kind);
    assert forall i :: 0 <= i < |FilePrefix| ==> r[i] != ':';
    r
  }

  datatype Saved = Saved(media: MediaStore.MediaState, upload: Option<MediaStore.UploadRequest>,
                         openAlbum: Option<string>, alerted: bool)

  /** `handleSaveMedia`: without a capture or a selected album nothing happens;
      otherwise the capture is uploaded as a file named after `timestamp`, and
      the page opens the album on success or alerts on failure */
  function SaveMedia(p: Page, timestamp: string, m: MediaStore.MediaState, response: Outcome<Media>): (r: Saved)
    ensures p.captured.None? || p.selectedAlbumId == "" ==>
      r.media == m && r.upload.None? && r.openAlbum.None? && !r.alerted
    ensures p.captured.Some? && p.selectedAlbumId != "" ==>
      var c := p.captured.value;
      && r.upload == Some(MediaStore.UploadRequest(
           MediaStore.File(FileName(timestamp, c.kind), MimeType(c.kind), c.blob), p.selectedAlbumId, c.kind))
      && r.media == MediaStore.UploadMediaDone(MediaStore.Begin(m), response).state
      && (r.openAlbum.Some? <==> response.Ok?)
      && (r.openAlbum.Some? ==> r.openAlbum.value == p.selectedAlbumId)
      && (r.alerted <==> response.Err?)
  {
    match p.captured
    case None => Saved(m, None, None, false)
    case Some(c) =>
      if p.selectedAlbumId == "" then Saved(m, None, None, false)
      else
        var request := MediaStore.UploadRequest(
          MediaStore.File(FileName(timestamp, c.kind), MimeType(c.kind), c.blob), p.selectedAlbumId, c.kind);
        var step := MediaStore.UploadMediaDone(MediaStore.Begin(m), response);
        if step.result.Ok? then Saved(step.state, Some(request), Some(p.selectedAlbumId), false)
        else Saved(step.state, Some(request), None, true)
  }

  /** A saved capture lands at the end of the album's media list */
  lemma SavedCaptureIsLast(p: Page, timestamp: string, m: MediaStore.MediaState, item: Media)
    requires p.captured.Some? && p.selectedAlbumId != ""
    ensures var r := SaveMedia(p, timestamp, m, Ok(item));
      r.openAlbum == Some(p.selectedAlbumId) && r.media.mediaItems == m.mediaItems + [item]
  {
  }

  /** `handleDiscard`: the capture is dropped; the selection stays */
  function Discard(p: Page): (r: Page)
    ensures r.captured.None? && r.selectedAlbumId == p.selectedAlbumId
    ensures p.captured.None? ==> r == p
  {
    if p.captured.Some? then p.(captured := None) else p
  }

  /** Discarding a capture returns the page to where it was before capturing */
  lemma DiscardUndoesCapture(p: Page, blob: Bytes, kind: MediaKind)
    requires p.captured.None?
    ensures Discard(Capture(p, blob, kind)) == p
  {
  }

  /** A new capture replaces the one on screen */
  lemma RecaptureReplaces(p: Page, first: Bytes, firstKind: MediaKind, second: Bytes, secondKind: MediaKind)
    ensures Capture(Capture(p, first, firstKind), second, secondKind) == Capture(p, second, secondKind)
  {
  }
}

=== FILE: create_album_modal.dfy ===
/** The "Create New Album" dialog: name check, submission, and the outcome. */
module CreateAlbumModal {
  import opened Outcomes
  import opened Text

  datatype Modal = Modal(albumName: string, error: string, isSubmitting: bool)

  const Initial := Modal("", "", false)

  const NameRequired := "Album name is required"
  const CreateFailed := "Failed to create album. Please try again."

  /** The dialog once `handleSubmit` has checked the name, and the name it
      passes to `onCreateAlbum` if it calls it */
  datatype Submitted = Submitted(modal: Modal, call: Option<string>)

  /** The synchronous part of `handleSubmit`: a blank name is refused with a
      message and no call; otherwise the message is cleared, submission starts,
      and the name is passed on untrimmed */
  function Submit(m: Modal): (r: Submitted)
    ensures r.call.None? <==> AllSpace(m.albumName)
    ensures r.call.None? ==> r.modal == m.(error := NameRequired)
    ensures r.call.Some? ==> r.call.value == m.albumName && r.modal == m.(error := "", isSubmitting := true)
  {
    if Trim(m.albumName) == "" then Submitted(m.(error := NameRequired), None)
    else Submitted(m.(error := "", isSubmitting := true), Some(m.albumName))
  }

  datatype Settled = Settled(modal: Modal, closed: bool)

  /** `onCreateAlbum` settling: success empties the name and closes the dialog;
      failure shows a message and keeps the name; submission ends either way */
  function SubmitDone(m: Modal, outcome: Outcome<()>): (r: Settled)
    ensures !r.modal.isSubmitting
    ensures r.closed <==> outcome.Ok?
    ensures outcome.Ok? ==> r.modal.albumName == "" && r.modal.error == m.error
    ensures outcome.Err? ==> r.modal.albumName == m.albumName && r.modal.error == CreateFailed
  {
    match outcome
    case Ok(_) => Settled(m.(albumName := "", isSubmitting := false), true)
    case Err(_) => Settled(m.(error := CreateFailed, isSubmitting := false), false)
  }

  /** A whole successful submission of a non-blank name leaves a clean dialog */
  lemma SuccessLeavesCleanDialog(m: Modal)
    requires !AllSpace(m.albumName)
    ensures var s := Submit(m);
      s.call == Some(m.albumName) && SubmitDone(s.modal, Ok(())) == Settled(Initial, true)
  {
  }
}

=== FILE: device_store.dfy ===
/** The device store: the cameras the browser reports and the one in use. */
module DeviceStore {
  import opened Outcomes
  import opened Types
  import Seqs

  datatype DeviceState = DeviceState(
    devices: seq<Device>,
    currentDeviceId: Option<string>,
    isLoading: bool,
    error: Option<string>)

  const Initial := DeviceState([], None, false, None)

  const DevicesFailed := "Failed to fetch media devices"

  /** The first update of `getDevices`: loading on, previous error cleared */
  function Begin(s: DeviceState): (r: DeviceState)
    ensures r.isLoading && r.error.None?
    ensures r.devices == s.devices && r.currentDeviceId == s.currentDeviceId
  {
    s.(isLoading := true, error := None)
  }

  predicate IsCamera(d: Device)
  {
    d.kind == VideoInput
  }

  /** The video inputs among `devices`, in the browser's order */
  function Cameras(devices: seq<Device>): (r: seq<Device>)
    ensures forall d :: d in r <==> d in devices && d.kind == VideoInput
  {
    Seqs.Filter(devices, IsCamera)
  }

  /** The cameras keep the browser's order: filtering a concatenation filters each part */
  lemma CamerasSplit(front: seq<Device>, back: seq<Device>)
    ensures Cameras(front + back) == Cameras(front) + Cameras(back)
  {
    Seqs.FilterAppend(front, back, IsCamera);
  }

  /** A list of cameras only is kept whole */
  lemma CamerasKeepsCameras(devices: seq<Device>)
    requires forall d :: d in devices ==> d.kind == VideoInput
    ensures Cameras(devices) == devices
  {
    Seqs.FilterKeepsAll(devices, IsCamera);
  }

  /** `getDevices` settling with the result of asking for camera permission and
      listing the devices: the cameras become the device list and the first
      of them the selected one, whatever was selected before; a failure is
      recorded, swallowed, and leaves list and selection alone */
  function GetDevicesDone(s: DeviceState, listed: Outcome<seq<Device>>): (r: DeviceState)
    ensures !r.isLoading
    ensures listed.Ok? ==>
      && r.devices == Cameras(listed.data)
      && r.error == s.error
      && (r.currentDeviceId.None? <==> forall d :: d in listed.data ==> d.kind != VideoInput)
      && (r.currentDeviceId.Some? ==> r.currentDeviceId.value == r.devices[0].deviceId)
    ensures listed.Err? ==>
      && r.devices == s.devices && r.currentDeviceId == s.currentDeviceId
      && r.error == Some(MessageOr(listed.reason, DevicesFailed))
  {
    match listed
    case Ok(all) =>
      var cameras := Cameras(all);
      var current := if |cameras| > 0 then Some(cameras[0].deviceId) else None;
      s.(devices := cameras, currentDeviceId := current, isLoading := false)
    case Err(reason) =>
      s.(isLoading := false, error := Some(MessageOr(reason, DevicesFailed)))
  }

  /** `setCurrentDevice`: only the selection changes */
  function SetCurrentDevice(s: DeviceState, deviceId: string): (r: DeviceState)
    ensures r.currentDeviceId == Some(deviceId)
    ensures r.devices == s.devices && r.isLoading == s.isLoading && r.error == s.error
  {
    s.(currentDeviceId := Some(deviceId))
  }

  /** Selecting the previously selected device again restores the store */
  lemma SetCurrentDeviceBack(s: DeviceState, deviceId: string, previous: string)
    requires s.currentDeviceId == Some(previous)
    ensures SetCurrentDevice(SetCurrentDevice(s, deviceId), previous) == s
  {
  }
}

=== FILE: email.dfy ===
/** The e-mail check both auth forms share: `/\S+@\S+\.\S+/.test(s)`.
    `Matches` states what the unanchored regular expression accepts; `LooksLikeEmail`
    decides it in one left-to-right pass and is proved to agree with it. */
module Email {
  import opened Text

  /** `s[lo..hi]` is a non-empty run of non-space characters, which is what `\S+` matches */
  ghost predicate SolidRun(s: string, lo: int, hi: int)
  {
    0 <= lo < hi <= |s| && forall k :: lo <= k < hi ==> !IsSpace(s[k])
  }

  /** The pattern matches `s[p..q]`, with its `@` at index `at` and its `.` at index `dot` */
  ghost predicate MatchAt(s: string, p: int, at: int, dot: int, q: int)
  {
    && SolidRun(s, p, at) && at < |s| && s[at] == '@'
    && SolidRun(s, at + 1, dot) && dot < |s| && s[dot] == '.'
    && SolidRun(s, dot + 1, q)
  }

  /** `RegExp.prototype.test` with no anchors: some substring of `s` matches */
  ghost predicate Matches(s: string)
  {
    exists p, at, dot, q :: MatchAt(s, p, at, dot, q)
  }

  /** An `@` at `at` right after a non-space character, followed by non-space
      characters only, up to index `i` */
  ghost predicate AtRun(s: string, at: int, i: int)
  {
    && 1 <= at < i <= |s| && s[at] == '@' && !IsSpace(s[at - 1])
    && forall k :: at < k < i ==> !IsSpace(s[k])
  }

  /** Some `@` run reaches index `i` with at least one character after its `@` */
  ghost predicate PastAt(s: string, i: int)
  {
    exists at :: at + 1 < i && AtRun(s, at, i)
  }

  /** The shortest match around an `@` at `at` and a `.` at `dot`: one character
      before the `@`, everything between the two, one character after the `.` */
  ghost predicate Witness(s: string, at: int, dot: int)
  {
    AtRun(s, at, dot) && at + 1 < dot && dot + 1 < |s| && s[dot] == '.' && !IsSpace(s[dot + 1])
  }

  /** A match exists exactly when a shortest one does */
  lemma MatchesIffWitness(s: string)
    ensures Matches(s) <==> exists at, dot :: Witness(s, at, dot)
  {
    if Matches(s) {
      var p, at, dot, q :| MatchAt(s, p, at, dot, q);
      assert Witness(s, at, dot);
    }
    if exists at, dot :: Witness(s, at, dot) {
      var at, dot :| Witness(s, at, dot);
      assert MatchAt(s, at - 1, at, dot, dot + 2);
    }
  }

  /** What the scanner remembers about the prefix it has read */
  datatype Scan = Scan(
    prevSolid: bool,  // the last character is not white space
    atEnd: bool,      // the last character is an `@` after a non-space character
    mid: bool,        // such an `@`, then at least one more non-space character, ends the prefix
    dotted: bool,     // as `mid`, and then a `.` is the last character
    matched: bool)    // a whole match lies inside the prefix

  const Start := Scan(false, false, false, false, false)

  function Step(st: Scan, c: char): Scan
  {
    Scan(
      !IsSpace(c),
      c == '@' && st.prevSolid,
      !IsSpace(c) && (st.mid || st.atEnd),
      c == '.' && st.mid,
      st.matched || (st.dotted && !IsSpace(c)))
  }

  /** The scanner's state after reading `s[..i]` */
  function ScanPrefix(s: string, i: nat): Scan
    requires i <= |s|
  {
    if i == 0 then Start else Step(ScanPrefix(s, i - 1), s[i - 1])
  }

  /** `st` tells the truth about `s[..i]` */
  ghost predicate Describes(s: string, i: nat, st: Scan)
    requires i <= |s|
  {
    && (st.prevSolid <==> i > 0 && !IsSpace(s[i - 1]))
    && (st.atEnd <==> AtRun(s, i - 1, i))
    && (st.mid <==> PastAt(s, i))
    && (st.dotted <==> i > 0 && s[i - 1] == '.' && PastAt(s, i - 1))
    && (st.matched <==> exists at, dot :: dot + 1 < i && Witness(s, at, dot))
  }

  /** Reading one more character keeps the scanner truthful */
  lemma StepDescribes(s: string, i: nat, st: Scan)
    requires i < |s| && Describes(s, i, st)
    ensures Describes(s, i + 1, Step(st, s[i]))
  {
    var c := s[i];
    var nx := Step(st, c);
    // mid
    if PastAt(s, i + 1) {
      var at :| at + 1 < i + 1 && AtRun(s, at, i + 1);
      assert AtRun(s, at, i);
      assert !IsSpace(c);
      if at + 1 < i {
        assert st.mid;
      } else {
        assert st.atEnd;
      }
    }
    if nx.mid {
      if st.mid {
        var at :| at + 1 < i && AtRun(s, at, i);
        assert AtRun(s, at, i + 1);
      } else {
        assert AtRun(s, i - 1, i + 1);
      }
    }
    // dotted
    // matched
    if exists at, dot :: dot + 1 < i + 1 && Witness(s, at, dot) {
      var at, dot :| dot + 1 < i + 1 && Witness(s, at, dot);
      if dot + 1 == i {
        assert AtRun(s, at, i - 1);
        assert st.dotted;
      }
    }
    if nx.matched && !st.matched {
      var at :| at + 1 < i - 1 && AtRun(s, at, i - 1);
      assert Witness(s, at, i - 1);
    }
  }

  lemma {:induction false} ScanPrefixDescribes(s: string, i: nat)
    requires i <= |s|
    ensures Describes(s, i, ScanPrefix(s, i))
  {
    if i > 0 {
      ScanPrefixDescribes(s, i - 1);
      StepDescribes(s, i - 1, ScanPrefix(s, i - 1));
    }
  }

  /** `/\S+@\S+\.\S+/.test(s)`, computed in one pass */
  function LooksLikeEmail(s: string): (r: bool)
    ensures r <==> Matches(s)
  {
    ScanPrefixDescribes(s, |s|);
    MatchesIffWitness(s);
    ScanPrefix(s, |s|).matched
  }

  /** Every string the pattern accepts contains an '@' */
  lemma MatchesHasAt(s: string)
    requires Matches(s)
    ensures exists i :: 0 <= i < |s| && s[i] == '@'
  {
    var p, at, dot, q :| MatchAt(s, p, at, dot, q);
    assert s[at] == '@';
  }
}

=== FILE: login_form.dfy ===
/** The sign-in form: two inputs, one message per input plus a form-level
    message, client-side validation, and submission to the auth store. An
    empty message means "no error". */
module LoginForm {
  import Email
  import AuthStore

  datatype Fields = Fields(email: string, password: string)
  datatype Errors = Errors(email: string, password: string, form: string)
  datatype Form = Form(data: Fields, errors: Errors)

  /** The inputs, by their `name` attribute */
  datatype Field = EmailInput | PasswordInput

  const Blank := Form(Fields("", ""), Errors("", "", ""))

  const EmailRequired := "Email is required"
  const EmailInvalid := "Email is invalid"
  const PasswordRequired := "Password is required"
  const SignInFailed := "Invalid email or password"

  /** `handleChange`: the edited input takes the new value and loses its
      message; the other input and the form-level message stay */
  function HandleChange(f: Form, field: Field, value: string): (r: Form)
    ensures r.errors.form == f.errors.form
    ensures field == EmailInput ==>
      r.data == f.data.(email := value) && r.errors == f.errors.(email := "")
    ensures field == PasswordInput ==>
      r.data == f.data.(password := value) && r.errors == f.errors.(password := "")
  {
    match field
    case EmailInput =>
      Form(f.data.(email := value), if f.errors.email != "" then f.errors.(email := "") else f.errors)
    case PasswordInput =>
      Form(f.data.(password := value), if f.errors.password != "" then f.errors.(password := "") else f.errors)
  }

  datatype Validation = Validation(valid: bool, errors: Errors)

  /** `validate`: a well-formed e-mail and any non-empty password pass. A
      failing check sets its input's message; a passing one leaves whatever
      message was there. */
  function Validate(d: Fields, e: Errors): (r: Validation)
    ensures r.valid <==> Email.Matches(d.email) && d.password != ""
    ensures r.errors.email ==
      if d.email == "" then EmailRequired
      else if !Email.Matches(d.email) then EmailInvalid
      else e.email
    ensures r.errors.password == if d.password == "" then PasswordRequired else e.password
    ensures r.errors.form == e.form
  {
    var emailOk := d.email != "" && Email.LooksLikeEmail(d.email);
    var passwordOk := d.password != "";
    var errors := Errors(
      if d.email == "" then EmailRequired else if !emailOk then EmailInvalid else e.email,
      if passwordOk then e.password else PasswordRequired,
      e.form);
    Validation(emailOk && passwordOk, errors)
  }

  /** Unlike sign-up, sign-in accepts a one-character password */
  lemma NoLengthRequirement(e: Errors)
    ensures Validate(Fields("test@example.com", "x"), e).valid
  {
    assert Email.MatchAt("test@example.com", 0, 4, 12, 16);
  }

  datatype Submission = Submission(form: Form, auth: AuthStore.Auth, signedIn: bool)

  /** `handleSubmit`: validation first; only a valid form calls `login`, and
      only a rejected login sets the form-level message. `signedIn` is the
      move to the dashboard. */
  function HandleSubmit(f: Form, a: AuthStore.Auth): (r: Submission)
    ensures var v := Validate(f.data, f.errors);
      && r.form.data == f.data
      && (!v.valid ==> r.auth == a && !r.signedIn && r.form.errors == v.errors)
      && (v.valid ==>
            var step := AuthStore.LoginDone(AuthStore.Begin(a), f.data.email, f.data.password);
            && r.auth == step.auth
            && (r.signedIn <==> step.result.Ok?)
            && (r.signedIn ==> r.form.errors == v.errors)
            && (!r.signedIn ==> r.form.errors == v.errors.(form := SignInFailed)))
  {
    var v := Validate(f.data, f.errors);
    if !v.valid then Submission(Form(f.data, v.errors), a, false)
    else
      var step := AuthStore.LoginDone(AuthStore.Begin(a), f.data.email, f.data.password);
      if step.result.Ok? then Submission(Form(f.data, v.errors), step.auth, true)
      else Submission(Form(f.data, v.errors.(form := SignInFailed)), step.auth, false)
  }

  /** A submission signs in exactly when the form is valid, the e-mail is
      registered and the password is the fixed one */
  lemma SignInIff(f: Form, a: AuthStore.Auth)
    ensures HandleSubmit(f, a).signedIn <==>
      && Email.Matches(f.data.email)
      && f.data.email in a.registry
      && f.data.password == AuthStore.Password
  {
    if Email.Matches(f.data.email) {
      Email.MatchesHasAt(f.data.email);
      AuthStore.PatternKeysAreOwn(a.registry, f.data.email);
    }
  }

  /** The seeded account signs in on a fresh page load */
  lemma SeededAccountSignsIn(storage: AuthStore.Storage)
    ensures HandleSubmit(Form(Fields("test@example.com", "password"), Blank.errors),
                         AuthStore.Load(storage)).signedIn
  {
    assert Email.MatchAt("test@example.com", 0, 4, 12, 16);
  }

  /** Every message shown under an input is the one its check gives for the
      value now in that input */
  ghost predicate MessagesCurrent(f: Form)
  {
    && (f.errors.email != "" ==>
          || (f.data.email == "" && f.errors.email == EmailRequired)
          || (f.data.email != "" && !Email.Matches(f.data.email) && f.errors.email == EmailInvalid))
    && (f.errors.password != "" ==> f.data.password == "" && f.errors.password == PasswordRequired)
  }

  /** Typing into either input keeps the messages current */
  lemma ChangeKeepsMessagesCurrent(f: Form, field: Field, value: string)
    requires MessagesCurrent(f)
    ensures MessagesCurrent(HandleChange(f, field, value))
  {
  }

  /** Validation keeps the messages current, and a form that passes shows no
      message under either input */
  lemma ValidateKeepsMessagesCurrent(f: Form)
    requires MessagesCurrent(f)
    ensures var v := Validate(f.data, f.errors);
      && MessagesCurrent(Form(f.data, v.errors))
      && (v.valid ==> v.errors.email == "" && v.errors.password == "")
  {
  }
}

=== FILE: media_store.dfy ===
/** The media store: the items of the album being viewed, and the
    loading/error flags around each request. An action is `Begin`, then, once
    its request settles, the matching `...Done` function applied to the store
    as it is at that moment. */
module MediaStore {
  import opened Outcomes
  import opened Types
  import Seqs

  datatype MediaState = MediaState(mediaItems: seq<Media>, isLoading: bool, error: Option<string>)

  /** The store after a request settles, and how the action's promise settles */
  datatype Step = Step(state: MediaState, result: Outcome<()>)

  const Initial := MediaState([], false, None)

  const FetchFailed := "Failed to fetch media"
  const UploadFailed := "Failed to upload media"
  const DeleteFailed := "Failed to delete media"

  /** What the application sends with an upload: the file, its album and its kind */
  datatype File = File(name: string, mimeType: string, content: Bytes)
  datatype UploadRequest = UploadRequest(file: File, albumId: string, fileType: MediaKind)

  /** The first update of every action: loading on, previous error cleared */
  function Begin(s: MediaState): (r: MediaState)
    ensures r.isLoading && r.error.None? && r.mediaItems == s.mediaItems
  {
    s.(isLoading := true, error := None)
  }

  /** The update every failed request makes: loading off, message recorded */
  function Failed(s: MediaState, reason: Option<string>, fallback: string): (r: MediaState)
    ensures !r.isLoading && r.error == Some(MessageOr(reason, fallback))
    ensures r.mediaItems == s.mediaItems
  {
    s.(isLoading := false, error := Some(MessageOr(reason, fallback)))
  }

  /** `fetchMediaByAlbum` settling: the answer replaces the list; a failure is
      recorded and swallowed */
  function FetchMediaDone(s: MediaState, response: Outcome<seq<Media>>): (r: Step)
    ensures r.result.Ok? && !r.state.isLoading
    ensures response.Ok? ==> r.state.mediaItems == response.data && r.state.error == s.error
    ensures response.Err? ==>
      r.state.mediaItems == s.mediaItems && r.state.error == Some(MessageOr(response.reason, FetchFailed))
  {
    match response
    case Ok(items) => Step(s.(mediaItems := items, isLoading := false), Ok(()))
    case Err(reason) => Step(Failed(s, reason, FetchFailed), Ok(()))
  }

  /** `uploadMedia` settling with the server's record of the new item: it goes at
      the end of the list; a failure is recorded and rethrown */
  function UploadMediaDone(s: MediaState, response: Outcome<Media>): (r: Step)
    ensures !r.state.isLoading
    ensures r.result.Ok? <==> response.Ok?
    ensures response.Ok? ==>
      && |r.state.mediaItems| == |s.mediaItems| + 1
      && r.state.mediaItems[..|s.mediaItems|] == s.mediaItems
      && r.state.mediaItems[|s.mediaItems|] == response.data
      && r.state.error == s.error
    ensures response.Err? ==>
      && r.result == Err(response.reason)
      && r.state.mediaItems == s.mediaItems
      && r.state.error == Some(MessageOr(response.reason, UploadFailed))
  {
    match response
    case Ok(item) => Step(s.(mediaItems := s.mediaItems + [item], isLoading := false), Ok(()))
    case Err(reason) => Step(Failed(s, reason, UploadFailed), Err(reason))
  }

  /** The items without those whose id is `id` (`items.filter(i => i.id !== id)`) */
  function WithoutId(items: seq<Media>, id: string): (r: seq<Media>)
    ensures forall m :: m in r ==> m.id != id
    ensures forall m :: m in items && m.id != id ==> m in r
    ensures forall m :: m in r ==> m in items
  {
    Seqs.Filter(items, (m: Media) => m.id != id)
  }

  /** The survivors keep their relative order */
  lemma WithoutIdSplits(front: seq<Media>, back: seq<Media>, id: string)
    ensures WithoutId(front + back, id) == WithoutId(front, id) + WithoutId(back, id)
  {
    Seqs.FilterAppend(front, back, (m: Media) => m.id != id);
  }

  /** Deleting an id that no item has is the identity */
  lemma WithoutAbsentId(items: seq<Media>, id: string)
    requires forall m :: m in items ==> m.id != id
    ensures WithoutId(items, id) == items
  {
    Seqs.FilterKeepsAll(items, (m: Media) => m.id != id);
  }

  /** Deleting a freshly uploaded item by its id undoes the upload */
  lemma DeleteUndoesUpload(s: MediaState, item: Media)
    requires forall m :: m in s.mediaItems ==> m.id != item.id
    ensures var uploaded := UploadMediaDone(Begin(s), Ok(item)).state;
      DeleteMediaDone(Begin(uploaded), item.id, Ok(())).state.mediaItems == s.mediaItems
  {
    var uploaded := UploadMediaDone(Begin(s), Ok(item)).state;
    assert uploaded.mediaItems == s.mediaItems + [item];
    WithoutIdSplits(s.mediaItems, [item], item.id);
    WithoutAbsentId(s.mediaItems, item.id);
    assert WithoutId([item], item.id) == [];
  }

  /** `deleteMedia` settling: every item with that id leaves the list; a failure
      is recorded and rethrown */
  function DeleteMediaDone(s: MediaState, id: string, response: Outcome<()>): (r: Step)
    ensures r.result == response && !r.state.isLoading
    ensures response.Ok? ==> r.state.mediaItems == WithoutId(s.mediaItems, id) && r.state.error == s.error
    ensures response.Err? ==>
      r.state.mediaItems == s.mediaItems && r.state.error == Some(MessageOr(response.reason, DeleteFailed))
  {
    match response
    case Ok(_) => Step(s.(mediaItems := WithoutId(s.mediaItems, id), isLoading := false), response)
    case Err(reason) => Step(Failed(s, reason, DeleteFailed), Err(reason))
  }

  /** A failed fetch leaves no trace once a later fetch succeeds */
  lemma RefetchForgetsFailure(s: MediaState, reason: Option<string>, items: seq<Media>)
    ensures var failed := FetchMediaDone(Begin(s), Err(reason)).state;
      FetchMediaDone(Begin(failed), Ok(items)) == FetchMediaDone(Begin(s), Ok(items))
  {
  }
}

=== FILE: outcomes.dfy ===
/** Optional values and the outcome of a call the application cannot see into
    (an HTTP request, a browser device API). */
module Outcomes {

  /** JavaScript `T | null` (and `undefined` where the source treats it the same way) */
  datatype Option<+T> = None | Some(value: T)

  /** The settled state of a promise: resolved with `data`, or rejected with a
      thrown value. `reason` is `Some(message)` when the thrown value is an
      `Error` carrying that message, and `None` for anything else. */
  datatype Outcome<+T> = Ok(data: T) | Err(reason: Option<string>)

  /** The stores' `error instanceof Error ? error.message : fallback` */
  function MessageOr(reason: Option<string>, fallback: string): (m: string)
    ensures reason.None? ==> m == fallback
    ensures reason.Some? ==> m == reason.value
  {
    match reason
    case Some(message) => message
    case None => fallback
  }

  /** JavaScript truthiness of a `string | null`: present and non-empty */
  predicate Truthy(s: Option<string>)
  {
    s.Some? && s.value != ""
  }
}

=== FILE: register_form.dfy ===
/** The sign-up form: four inputs, one message per input plus a form-level
    message, client-side validation, and submission to the auth store. An
    empty message means "no error". */
module RegisterForm {
  import opened Text
  import Email
  import AuthStore

  datatype Fields = Fields(name: string, email: string, password: string, confirmPassword: string)
  datatype Errors = Errors(name: string, email: string, password: string, confirmPassword: string, form: string)
  datatype Form = Form(data: Fields, errors: Errors)

  /** The inputs, by their `name` attribute */
  datatype Field = NameInput | EmailInput | PasswordInput | ConfirmPasswordInput

  const Blank := Form(Fields("", "", "", ""), Errors("", "", "", "", ""))

  const NameRequired := "Name is required"
  const EmailRequired := "Email is required"
  const EmailInvalid := "Email is invalid"
  const PasswordRequired := "Password is required"
  const PasswordTooShort := "Password must be at least 6 characters"
  const PasswordsDiffer := "Passwords do not match"
  const RegistrationFailed := "Registration failed. Please try again."

  const MinPasswordLength := 6

  /** `handleChange`: the edited input takes the new value and loses its
      message; every other input and message stays */
  function HandleChange(f: Form, field: Field, value: string): (r: Form)
    ensures r.errors.form == f.errors.form
    ensures field == NameInput ==>
      r.data == f.data.(name := value) && r.errors == f.errors.(name := "")
    ensures field == EmailInput ==>
      r.data == f.data.(email := value) && r.errors == f.errors.(email := "")
    ensures field == PasswordInput ==>
      r.data == f.data.(password := value) && r.errors == f.errors.(password := "")
    ensures field == ConfirmPasswordInput ==>
      r.data == f.data.(confirmPassword := value) && r.errors == f.errors.(confirmPassword := "")
  {
    match field
    case NameInput =>
      Form(f.data.(name := value), if f.errors.name != "" then f.errors.(name := "") else f.errors)
    case EmailInput =>
      Form(f.data.(email := value), if f.errors.email != "" then f.errors.(email := "") else f.errors)
    case PasswordInput =>
      Form(f.data.(password := value), if f.errors.password != "" then f.errors.(password := "") else f.errors)
    case ConfirmPasswordInput =>
      Form(f.data.(confirmPassword := value),
           if f.errors.confirmPassword != "" then f.errors.(confirmPassword := "") else f.errors)
  }

  datatype Validation = Validation(valid: bool, errors: Errors)

  /** `validate`: the verdict, and the messages after it. A failing check sets
      its input's message; a passing one leaves whatever message was there. */
  function Validate(d: Fields, e: Errors): (r: Validation)
    ensures r.valid <==>
      && !AllSpace(d.name)
      && Email.Matches(d.email)
      && |d.password| >= MinPasswordLength
      && d.password == d.confirmPassword
    ensures r.errors.name == if AllSpace(d.name) then NameRequired else e.name
    ensures r.errors.email ==
      if d.email == "" then EmailRequired
      else if !Email.Matches(d.email) then EmailInvalid
      else e.email
    ensures r.errors.password ==
      if d.password == "" then PasswordRequired
      else if |d.password| < MinPasswordLength then PasswordTooShort
      else e.password
    ensures r.errors.confirmPassword == if d.password != d.confirmPassword then PasswordsDiffer else e.confirmPassword
    ensures r.errors.form == e.form
  {
    var nameOk := Trim(d.name) != "";
    var emailOk := d.email != "" && Email.LooksLikeEmail(d.email);
    var passwordOk := d.password != "" && |d.password| >= MinPasswordLength;
    var confirmOk := d.password == d.confirmPassword;
    var errors := Errors(
      if nameOk then e.name else NameRequired,
      if d.email == "" then EmailRequired else if !emailOk then EmailInvalid else e.email,
      if d.password == "" then PasswordRequired else if !passwordOk then PasswordTooShort else e.password,
      if confirmOk then e.confirmPassword else PasswordsDiffer,
      e.form);
    Validation(nameOk && emailOk && passwordOk && confirmOk, errors)
  }

  /** A valid e-mail is never empty, so the two e-mail messages never compete */
  lemma EmptyEmailNeverMatches()
    ensures !Email.Matches("")
  {
  }

  /** The mismatch check does not depend on the password checks: a short
      password and a different confirmation are both reported */
  lemma ShortAndMismatched(e: Errors)
    ensures var r := Validate(Fields("Ann", "a@b.c", "abc", "abd"), e);
      r.errors.password == PasswordTooShort && r.errors.confirmPassword == PasswordsDiffer && !r.valid
  {
  }

  datatype Submission = Submission(form: Form, auth: AuthStore.Auth, registered: bool)

  /** `handleSubmit`: validation first; only a valid form calls `register`, and
      only a rejected registration sets the form-level message. `registered`
      is the move to the sign-in page. */
  function HandleSubmit(f: Form, a: AuthStore.Auth): (r: Submission)
    ensures var v := Validate(f.data, f.errors);
      && r.form.data == f.data
      && (!v.valid ==> r.auth == a && !r.registered && r.form.errors == v.errors)
      && (v.valid ==>
            var step := AuthStore.RegisterDone(AuthStore.Begin(a), f.data.name, f.data.email, f.data.password);
            && r.auth == step.auth
            && (r.registered <==> step.result.Ok?)
            && (r.registered ==> r.form.errors == v.errors)
            && (!r.registered ==> r.form.errors == v.errors.(form := RegistrationFailed)))
  {
    var v := Validate(f.data, f.errors);
    if !v.valid then Submission(Form(f.data, v.errors), a, false)
    else
      var step := AuthStore.RegisterDone(AuthStore.Begin(a), f.data.name, f.data.email, f.data.password);
      if step.result.Ok? then Submission(Form(f.data, v.errors), step.auth, true)
      else Submission(Form(f.data, v.errors.(form := RegistrationFailed)), step.auth, false)
  }

  /** A valid form with an e-mail not yet registered always registers it */
  lemma FreshEmailRegisters(f: Form, a: AuthStore.Auth)
    requires Validate(f.data, f.errors).valid && f.data.email !in a.registry
    ensures var r := HandleSubmit(f, a);
      r.registered && f.data.email in r.auth.registry && r.form.errors.form == f.errors.form
  {
    Email.MatchesHasAt(f.data.email);
    AuthStore.PatternKeysAreOwn(a.registry, f.data.email);
  }

  /** Every message shown under the name, e-mail or password input is the one
      its check gives for the value now in that input. The confirmation's
      message is not covered: editing the password alone can make it stale
      (`StaleMismatchMessage`). */
  ghost predicate MessagesCurrent(f: Form)
  {
    && (f.errors.name != "" ==> f.errors.name == NameRequired && AllSpace(f.data.name))
    && (f.errors.email != "" ==>
          || (f.data.email == "" && f.errors.email == EmailRequired)
          || (f.data.email != "" && !Email.Matches(f.data.email) && f.errors.email == EmailInvalid))
    && (f.errors.password != "" ==>
          || (f.data.password == "" && f.errors.password == PasswordRequired)
          || (f.data.password != "" && |f.data.password| < MinPasswordLength && f.errors.password == PasswordTooShort))
  }

  /** Typing into any input keeps the messages current */
  lemma ChangeKeepsMessagesCurrent(f: Form, field: Field, value: string)
    requires MessagesCurrent(f)
    ensures MessagesCurrent(HandleChange(f, field, value))
  {
  }

  /** Validation keeps the messages current, and a form that passes shows no
      message under the name, e-mail or password input */
  lemma ValidateKeepsMessagesCurrent(f: Form)
    requires MessagesCurrent(f)
    ensures var v := Validate(f.data, f.errors);
      && MessagesCurrent(Form(f.data, v.errors))
      && (v.valid ==> v.errors.name == "" && v.errors.email == "" && v.errors.password == "")
  {
  }

  /** The exception: after a mismatch is reported, making the password equal
      to the confirmation clears only the password's message, so a form that
      now passes still shows "Passwords do not match" */
  lemma StaleMismatchMessage()
    ensures var first := Validate(Fields("Ann", "a@b.c", "secret1", "secret2"), Blank.errors);
      var edited := HandleChange(Form(Fields("Ann", "a@b.c", "secret1", "secret2"), first.errors),
                                 PasswordInput, "secret2");
      var second := Validate(edited.data, edited.errors);
      second.valid && second.errors.confirmPassword == PasswordsDiffer
  {
    assert Email.MatchAt("a@b.c", 0, 1, 3, 5);
  }
}

=== FILE: seqs.dfy ===
/** The two list operations the stores and the recorder are built from:
    `Array.prototype.filter` and concatenation of a list of byte chunks. */
module Seqs {

  /** The elements of `s` that satisfy `p`, in their original order */
  function Filter<T(==,!new)>(s: seq<T>, p: T -> bool): (r: seq<T>)
    ensures |r| <= |s|
    ensures forall x :: x in r <==> x in s && p(x)
  {
    if |s| == 0 then []
    else
      var rest := Filter(s[1..], p);
      if p(s[0]) then [s[0]] + rest else rest
  }

  /** Filtering keeps every copy of an accepted element and no copy of a rejected one */
  lemma {:induction false} FilterCount<T(!new)>(s: seq<T>, p: T -> bool, x: T)
    ensures multiset(Filter(s, p))[x] == if p(x) then multiset(s)[x] else 0
  {
    if |s| > 0 {
      assert s == [s[0]] + s[1..];
      FilterCount(s[1..], p, x);
    }
  }

  /** Filtering works piecewise, so it never reorders the elements it keeps */
  lemma {:induction false} FilterAppend<T(!new)>(a: seq<T>, b: seq<T>, p: T -> bool)
    ensures Filter(a + b, p) == Filter(a, p) + Filter(b, p)
  {
    if |a| == 0 {
      assert a + b == b;
    } else {
      var ab := a + b;
      assert ab[0] == a[0] && ab[1..] == a[1..] + b;
      FilterAppend(a[1..], b, p);
      assert Filter(ab, p) == (if p(a[0]) then [a[0]] else []) + Filter(ab[1..], p);
      assert Filter(a, p) == (if p(a[0]) then [a[0]] else []) + Filter(a[1..], p);
    }
  }

  /** A filter that rejects nothing is the identity */
  lemma {:induction false} FilterKeepsAll<T(!new)>(s: seq<T>, p: T -> bool)
    requires forall x :: x in s ==> p(x)
    ensures Filter(s, p) == s
  {
    if |s| > 0 {
      FilterKeepsAll(s[1..], p);
    }
  }

  /** All chunks of `chunks`, joined end to end */
  function Flatten<T>(chunks: seq<seq<T>>): (r: seq<T>)
    ensures |r| == 0 <==> forall i :: 0 <= i < |chunks| ==> |chunks[i]| == 0
    ensures |chunks| > 0 ==> |chunks[0]| <= |r| && r[..|chunks[0]|] == chunks[0]
  {
    if |chunks| == 0 then [] else chunks[0] + Flatten(chunks[1..])
  }

  /** Joining is piecewise: the chunks of `a` come first, then those of `b` */
  lemma {:induction false} FlattenAppend<T>(a: seq<seq<T>>, b: seq<seq<T>>)
    ensures Flatten(a + b) == Flatten(a) + Flatten(b)
  {
    if |a| == 0 {
      assert a + b == b;
    } else {
      assert (a + b)[1..] == a[1..] + b;
      FlattenAppend(a[1..], b);
    }
  }

  predicate NonEmpty<T>(chunk: seq<T>)
  {
    |chunk| > 0
  }

  /** Dropping empty chunks does not change the joined content */
  lemma {:induction false} FlattenSkipsEmpty<T(!new)>(chunks: seq<seq<T>>)
    ensures Flatten(Filter(chunks, NonEmpty)) == Flatten(chunks)
  {
    if |chunks| > 0 {
      FlattenSkipsEmpty(chunks[1..]);
    }
  }
}

=== FILE: text.dfy ===
/** String helpers with JavaScript's meaning: white space, `trim()`, `String(n)`
    and `replace(/c/g, d)`. */
module Text {

  /** The characters JavaScript's `\s` class and `String.prototype.trim` treat as
      white space: the WhiteSpace and LineTerminator productions of ECMAScript
      (sections 12.2 and 12.3 of ECMA-262). */
  predicate IsSpace(c: char)
  {
    || c == '\t' || c == '\n' || c == '\U{B}' || c == '\U{C}' || c == '\r' || c == ' '
    || c == '\U{A0}' || c == '\U{1680}' || ('\U{2000}' <= c <= '\U{200A}')
    || c == '\U{2028}' || c == '\U{2029}' || c == '\U{202F}' || c == '\U{205F}'
    || c == '\U{3000}' || c == '\U{FEFF}'
  }

  /** Every character of `s` is white space (vacuously so for "") */
  ghost predicate AllSpace(s: string)
  {
    forall i :: 0 <= i < |s| ==> IsSpace(s[i])
  }

  /** Length of the white-space prefix that `trim()` removes */
  function LeadingSpaces(s: string): (n: nat)
    ensures n <= |s|
    ensures forall i :: 0 <= i < n ==> IsSpace(s[i])
    ensures n < |s| ==> !IsSpace(s[n])
  {
    if |s| > 0 && IsSpace(s[0]) then 1 + LeadingSpaces(s[1..]) else 0
  }

  /** Length of the white-space suffix that `trim()` removes */
  function TrailingSpaces(s: string): (n: nat)
    ensures n <= |s|
    ensures forall i :: |s| - n <= i < |s| ==> IsSpace(s[i])
    ensures n < |s| ==> !IsSpace(s[|s| - n - 1])
  {
    if |s| > 0 && IsSpace(s[|s| - 1]) then 1 + TrailingSpaces(s[..|s| - 1]) else 0
  }

  /** `String.prototype.trim`: `s` without leading and trailing white space */
  function Trim(s: string): (r: string)
    ensures r == [] <==> AllSpace(s)
    ensures r != [] ==> !IsSpace(r[0]) && !IsSpace(r[|r| - 1])
    ensures |r| <= |s|
    ensures exists i, j :: 0 <= i <= j <= |s| && r == s[i..j] && AllSpace(s[..i]) && AllSpace(s[j..])
  {
    var lead := LeadingSpaces(s);
    if lead == |s| then
      assert s[0..0] == [] && s[..0] == [] && s[0..] == s;
      []
    else
      var trail := TrailingSpaces(s);
      assert !IsSpace(s[lead]);
      assert AllSpace(s[..lead]) && AllSpace(s[|s| - trail..]);
      s[lead..|s| - trail]
  }

  /** Trimming twice is trimming once */
  lemma TrimIdempotent(s: string)
    ensures Trim(Trim(s)) == Trim(s)
  {
  }

  /** `s` with every occurrence of `from` replaced by `to` (`s.replace(/from/g, to)`) */
  function ReplaceAll(s: string, from: char, to: char): (r: string)
    ensures |r| == |s|
    ensures forall i :: 0 <= i < |s| ==> r[i] == (if s[i] == from then to else s[i])
  {
    if |s| == 0 then []
    else [if s[0] == from then to else s[0]] + ReplaceAll(s[1..], from, to)
  }

  /** After replacing every `from` by a different character, no `from` is left */
  lemma ReplaceAllRemoves(s: string, from: char, to: char)
    requires from != to
    ensures from !in ReplaceAll(s, from, to)
  {
  }

  function DigitChar(d: nat): char
    requires d < 10
  {
    ('0' as int + d) as char
  }

  /** Decimal value of a string of digits (empty means 0) */
  function DecimalValue(s: string): nat
  {
    if |s| == 0 then 0
    else
      var d := s[|s| - 1] as int - '0' as int;
      10 * DecimalValue(s[..|s| - 1]) + (if 0 <= d < 10 then d else 0)
  }

  /** JavaScript's `String(n)` for a natural number: its decimal digits */
  function NatToString(n: nat): (r: string)
    ensures |r| > 0
    ensures forall i :: 0 <= i < |r| ==> '0' <= r[i] <= '9'
    ensures |r| > 1 ==> r[0] != '0'
    ensures DecimalValue(r) == n
  {
    if n < 10 then [DigitChar(n)]
    else
      var r := NatToString(n / 10) + [DigitChar(n % 10)];
      assert r[..|r| - 1] == NatToString(n / 10);
      r
  }
}

=== FILE: types.dfy ===
/** The records the application exchanges with its backend and the browser. */
module Types {
  import opened Outcomes

  datatype User = User(id: string, name: string, email: string)

  datatype Album = Album(
    id: string,
    name: string,
    ownerId: string,
    createdAt: string,
    updatedAt: string,
    mediaCount: Option<int>,
    thumbnail: Option<string>)

  /** `'image' | 'video'` */
  datatype MediaKind = Image | Video

  datatype Media = Media(
    id: string,
    fileName: string,
    fileType: MediaKind,
    albumId: string,
    createdAt: string,
    url: string,
    thumbnail: Option<string>)

  /** `MediaDeviceInfo.kind` */
  datatype DeviceKind = AudioInput | AudioOutput | VideoInput

  /** The fields of `MediaDeviceInfo` the application reads or passes on */
  datatype Device = Device(deviceId: string, kind: DeviceKind, deviceLabel: string, groupId: string)

  newtype Byte = b: int | 0 <= b < 256

  /** The content of a `Blob`, treated as opaque bytes */
  type Bytes = seq<Byte>
}
